=== FILE: README.md ===
# EasyBindings, modelled in Dafny

EasyBindings is a small data-binding runtime for Unity. Observables announce changes on events:
- a `BindableProperty<T>` holding one value;
- a `BindableObject` whose setters announce property names;
- `BindableList`, `BindableSet` and `BindableDictionary` collections;
- plain `EasyEvent`s.

A `Binder` subscribes user handlers to those events, records every handle it receives, and removes them all, with any custom cleanup actions, on `Dispose`.

This project models that core as a pure, single-threaded state machine:

- `EasyDelegate` is the listener registry: an insertion-ordered sequence of `(fresh handle id, callback)` entries with `AddListener`, `Unlisten`, `ListenerCount` and `RemoveAllListeners`.
- `Listeners` holds the registries of all events as a *hub*, a map from event id to registry. It also holds:
  - the listener kinds a `Binder` registers: the user's delegate itself, the projecting lambda of `BindPropertyChange`, and the name filter of `BindObjectChange`;
  - the synchronous fan-out of one payload, in registration order;
  - unlistening by handle.
- `Binders` covers `Record`, `RegisterCustomCleanupAction`, the cleanup run and `Dispose`.
- `BinderBindings` covers the `Bind…` entry points, with their argument checks in source order.
- `CollectionBindings` covers the `BindList`, `BindDictionary` and `BindSet` extension hooks.
- `BindableProperty` models `Next`: a comparer-gated write that fires one `PropertyChangedEventArg` per change.
- `PropertyArithmetic` models the `int` and `long` `Add`, `Subtract`, `Multiply` and `Divide` shortcuts, with C# two's-complement wrap-around and truncating division.
- `BindableObject` covers `NotifyPropertyChanged`, `SetValue`, `SetStructValue` and `SetClassValue`.
- `EventArgs` holds the `[Flags] EventType` byte enum and the event-argument structs.
- `BindableList`, `BindableSet` and `BindableDictionary` model each collection as a `seq`, `set` or `map`, plus the events a mutation fires.
- `Scenarios` replays the library's own test methods on concrete values.

Modelling conventions:
- A call of a user delegate is a `Call(handler, argument)` value. A call through a null delegate, which throws `NullReferenceException` in C#, is a call with handler `None`.
- Exceptions are `Failure` results.
- The two copies of the runtime differ in places: the `EasyBindings/` copy uses `Event`/`IEventHandle`/`SafeInvoke`, the `Assets/` copy uses `EasyDelegate`/`EventHandle`/`InvokeAll`. The model follows the behaviour the two copies share and says where they part.

## Model

The collection implementation files have a backtick in their names (the generic arity), so the rows for the collections cite the tests and event-argument files that pin their behaviour, and name the implementation lines in the third column.

| member | source | states |
|---|---|---|
| EventArgs.Flag | EasyBindings/Scripts/Runtime/BindableCollections/EventType.cs:14-36 | each `EventType` member is one set bit (a nonzero power of two) below 16, so it fits the `byte` underlying type |
| EventArgs.FromFlag | EasyBindings/Scripts/Runtime/BindableCollections/EventType.cs:14-36 | exactly the four byte values 1, 2, 4 and 8 name a member |
| EventArgs.FlagRoundTrip | EasyBindings/Scripts/Runtime/BindableCollections/EventType.cs:14-36 | every member's flag decodes back to that member, and every decodable byte is a member's flag |
| EventArgs.FlagsDisjoint | EasyBindings/Scripts/Runtime/BindableCollections/EventType.cs:14-36 | two members share a bit iff they are the same member, as the `[Flags]` layout requires |
| EventArgs.FlagsUnion | EasyBindings/Scripts/Runtime/BindableCollections/EventType.cs:14-36 | the union of the four members is 15, the low four bits |
| EventArgs.FlagValues | EasyBindings/Scripts/Runtime/BindableCollections/EventType.cs:20-35 | the members' values are the source's constants: `Add` 1, `Remove` 2, `Update` 4, `Clear` 8 |
| EasyDelegate.AddListener | Assets/EasyBindings/Scripts/Runtime/Binder.cs:54-67 | the new registration gets a handle id not yet in use, is appended under that id after every earlier one, which are kept unchanged, and raises the listener count by one |
| EasyDelegate.AddListenerContains | Assets/EasyBindings/Scripts/Runtime/Binder.cs:54-67 | after `AddListener`, an id is registered exactly when it was before or is the new handle |
| EasyDelegate.Unlisten | Assets/EasyBindings/Scripts/Runtime/Binder.cs:74-82 | unlistening removes exactly the registration with that handle and keeps the others in order; an unknown or already removed handle changes nothing |
| EasyDelegate.RemoveAllListeners | Assets/EasyBindings/Scripts/Runtime/Binder.cs:94-96 | afterwards no handle is registered and the count is 0; ids stay fresh |
| EasyDelegate.UnlistenCount | Assets/EasyBindings/Scripts/Runtime/Binder.cs:74-82 | unlistening a live handle lowers `ListenerCount` by exactly one |
| EasyDelegate.AddThenUnlisten | Assets/EasyBindings/Scripts/Runtime/Binder.cs:74-82 | unlistening the handle `AddListener` just returned restores the original registrations in order |
| Listeners.Project | EasyBindings/Scripts/Runtime/Binder.cs:105-130 | the two-argument handler gets `(old, next)`, the one-argument handler gets `next`, the parameterless one gets nothing |
| Listeners.Deliver | Assets/EasyBindings/Scripts/Runtime/Binder.cs:171-197 | a plain delegate receives every payload; a name filter calls its handler with no argument exactly when the announced name equals its own; a projecting wrapper reacts only to property changes |
| Listeners.FanOut | Assets/EasyBindings/Scripts/Runtime/Binder.cs:295-309 | an invocation calls at most one user delegate per listener, only delegates that are registered, and exactly one per listener when all accept the payload |
| Listeners.FanOutAppend | Assets/EasyBindings/Scripts/Runtime/Binder.cs:295-309 | the calls made to listeners registered later come after those made to earlier listeners |
| Listeners.FanOutAllDirect | Assets/EasyBindings/Scripts/Runtime/Binder.cs:295-309 | plain delegates are called in registration order, each once, with the payload as fired |
| Listeners.Announce | Assets/EasyBindings/Scripts/Tests/TestBindableList.cs:15-32 | several events fired in a row run the whole registry once per event, never more than listeners × events calls |
| Listeners.AnnounceToDirect | Assets/EasyBindings/Scripts/Tests/TestBindableList.cs:30-31 | with plain delegates only, `k` events make exactly `k` calls per listener |
| Listeners.Subscribe | Assets/EasyBindings/Scripts/Runtime/Binder.cs:295-309 | subscribing appends the listener to its event only, under the new handle and after the earlier registrations, which keep their ids; the handle is fresh and no other event's registry changes |
| Listeners.UnlistenHandle | Assets/EasyBindings/Scripts/Runtime/Binder.cs:74-82 | `handle.Unlisten()` removes that registration from its own event and touches no other event |
| Listeners.UnlistenAll | Assets/EasyBindings/Scripts/Runtime/Binder.cs:74-82 | after unlistening every recorded handle, exactly the registrations whose handle was not recorded survive |
| Listeners.UnlistenAllKeepsOrder | Assets/EasyBindings/Scripts/Runtime/Binder.cs:74-82 | the registrations of every event that survive unlistening are exactly those whose handle was not unlistened, in their original registration order |
| Listeners.UnlistenAllLive | Assets/EasyBindings/Scripts/Runtime/Binder.cs:74-82 | a handle is live afterwards iff it was live before and was not among the unlistened handles |
| Binders.NewBinder | Assets/EasyBindings/Scripts/Runtime/Binder.cs:21-24 | a new binder has no recorded handle and no cleanup action |
| Binders.Record | Assets/EasyBindings/Scripts/Runtime/Binder.cs:30-48 | `Record(null)` changes nothing; a handle is appended after all earlier ones, which keep their order |
| Binders.RecordAllAppends | EasyBindings/Scripts/Runtime/Binder.cs:30-48 | recording a sequence of handles gives the earlier handles followed by the non-null new ones in call order |
| Binders.RegisterCustomCleanupAction | Assets/EasyBindings/Scripts/Runtime/Binder.cs:54-67 | a null action is ignored; other actions join the end of the cleanup list; recorded handles are untouched |
| Binders.RunCleanups | Assets/EasyBindings/Scripts/Runtime/Binder.cs:84-96 | cleanups run in registration order. When none throws, all run and nothing is logged. Without per-action isolation, the first throw ends the run and is the single logged exception. With isolation, all run. |
| Binders.IsolatedLogsEach | EasyBindings/Scripts/Runtime/Binder.cs:84-96 | with isolation, exactly one log entry is written per throwing action |
| Binders.RunCleanupsDetaches | Assets/EasyBindings/Scripts/Runtime/Binder.cs:84-96 | the cleanups that ran removed exactly the subscriptions they detach, as if unlistened in one sweep |
| Binders.Dispose | Assets/EasyBindings/Scripts/Runtime/Binder.cs:72-97 | afterwards no handle is recorded and no cleanup registered; the registries are exactly those left by unlistening the recorded handles and then those detached by the cleanups that ran, and nothing else; no recorded handle is live; no exception escapes; at most one exception is logged without isolation; every cleanup runs when none throws |
| Binders.DisposeLive | EasyBindings/Scripts/Runtime/Binder.cs:72-97 | a registration survives `Dispose` iff it was live, this binder did not record it, and no cleanup that ran detached it |
| Binders.DisposeKeepsOrder | Assets/EasyBindings/Scripts/Runtime/Binder.cs:72-97 | the registrations of each event that survive `Dispose` keep their ids, callbacks and order: they are the earlier ones minus the recorded and the detached handles |
| Binders.DisposeSparesUntouchedEvent | Assets/EasyBindings/Scripts/Runtime/Binder.cs:72-97 | invoking an event on which the binder recorded nothing and no cleanup that ran detached anything gives the same calls after `Dispose` as before |
| Binders.CleanupStopsSubscription | Assets/EasyBindings/Scripts/Tests/TestBinder.cs:129-145 | a subscription removed by a custom cleanup action is no longer live after `Dispose`, provided that action is reached |
| Binders.DisposeTwice | Assets/EasyBindings/Scripts/Runtime/Binder.cs:81-95 | a second `Dispose` runs no cleanup, logs nothing and changes no registry |
| Binders.DisposeSilences | Assets/EasyBindings/Scripts/Tests/TestBinder.cs:29-45 | when the binder recorded every registration of an event, that event has `ListenerCount` 0 after `Dispose` and invoking it calls nobody |
| BinderBindings.Attach | Assets/EasyBindings/Scripts/Runtime/Binder.cs:295-309 | subscribe then `Record`: one more handle after the earlier ones, naming a live registration on the bound event that was not live before; the bound event's registrations are the earlier ones, ids and order kept, plus the listener under that handle; other events and the cleanup registry untouched |
| BinderBindings.BindPropertyChange | EasyBindings/Scripts/Runtime/Binder.cs:105-130 | a null property throws `ArgumentNullException`; otherwise the projecting wrapper, even around a null delegate, is bound: the binding is `Attached`: the earlier handles are kept and one handle is recorded after them, live on the bound event and not live before; the listener is appended to that event's registrations under the new handle, the earlier registrations keeping their ids and order; no other event and not the cleanup registry changes |
| BinderBindings.BindPropertyValue | Assets/EasyBindings/Scripts/Runtime/Binder.cs:138-142 | binds like the `Action<T>` overload, so the binding is `Attached` (the earlier handles and registrations kept with their ids, the next-value listener appended under a new live handle, nothing else touched), then calls the handler once at once with the current value; a null handler is registered and then throws |
| BinderBindings.BindObjectChange | Assets/EasyBindings/Scripts/Runtime/Binder.cs:149-163 | a null object throws even with a null handler; a null handler records nothing; otherwise the binding is `Attached`: the earlier handles are kept and one handle is recorded after them, live on the bound event and not live before; the listener is appended to that event's registrations under the new handle, the earlier registrations keeping their ids and order; no other event and not the cleanup registry changes |
| BinderBindings.BindObjectChangeNamed | Assets/EasyBindings/Scripts/Runtime/Binder.cs:171-197 | the checks run in order: null object, then null or empty name (`ArgumentException`), then null handler (no-op). Otherwise a filter on the exact name is bound: the binding is `Attached`: the earlier handles are kept and one handle is recorded after them, live on the bound event and not live before; the listener is appended to that event's registrations under the new handle, the earlier registrations keeping their ids and order; no other event and not the cleanup registry changes |
| BinderBindings.BindEvent | EasyBindings/Scripts/Runtime/Binder.cs:205-240 | an unusable event throws `ArgumentNullException`; a null handler records nothing; otherwise the binding is `Attached`: the earlier handles are kept and one handle is recorded after them, live on the bound event and not live before; the listener is appended to that event's registrations under the new handle, the earlier registrations keeping their ids and order; no other event and not the cleanup registry changes |
| BinderBindings.BindEventThenInvoke | EasyBindings/Scripts/Runtime/Binder.cs:205-240 | after `BindEvent`, invoking the event makes the earlier listeners' calls and then calls the new handler with the payload; a null handler adds no call |
| BinderBindings.BindListenable | Assets/EasyBindings/Scripts/Runtime/Binder.cs:205-250 | an invalid `EasyEvent` or a null listenable throws `ArgumentNullException`; a null handler records nothing; otherwise the binding is `Attached`: the earlier handles are kept and one handle is recorded after them, live on the bound event and not live before; the listener is appended to that event's registrations under the new handle, the earlier registrations keeping their ids and order; no other event and not the cleanup registry changes |
| BinderBindings.BindListenableThenInvoke | Assets/EasyBindings/Scripts/Runtime/Binder.cs:205-250 | after `BindListenable`, invoking the event makes the earlier listeners' calls and then calls the new handler with the payload; a null handler adds no call |
| BinderBindings.BindThenNext | Assets/EasyBindings/Scripts/Tests/TestBindableProperty.cs:97-124 | after binding, a changing `Next` makes the earlier listeners' calls and then one call of the new handler with the projected arguments; a non-change calls nobody |
| BinderBindings.BindNamedThenNotify | Assets/EasyBindings/Scripts/Tests/TestBindableObject.cs:69-87 | after the name-filtered binding, a notification calls the new handler exactly when the names are equal |
| BinderBindings.BindObjectThenNotify | Assets/EasyBindings/Scripts/Tests/TestBindableObject.cs:50-67 | after `BindObjectChange`, every notified name reaches the new handler after the earlier listeners |
| BinderBindings.BindThenDispose | Assets/EasyBindings/Scripts/Tests/TestBindableProperty.cs:97-124 | after bind then `Dispose`, the new registration is gone and nothing became live that was not live before the bind; when the binder had made every registration on the property's event, a later `Next` calls nobody |
| BinderBindings.SubscribeLive | Assets/EasyBindings/Scripts/Runtime/Binder.cs:295-309 | after subscribing, the live registrations are the old ones plus the new handle |
| BinderBindings.RebindAfterDispose | EasyBindings/Scripts/Tests/TestBindableDictionary.cs:26-41 | a disposed binder is reusable: a new binding is its only recorded handle and is live |
| CollectionBindings.BindList | EasyBindings/Scripts/Runtime/BindableCollections/BinderExtensions.Collections.cs:24-28 | a null list throws `NullReferenceException`; otherwise one listener, even a null one, is bound to the list event: the binding is `Attached`: the earlier handles are kept and one handle is recorded after them, live on the bound event and not live before; the listener is appended to that event's registrations under the new handle, the earlier registrations keeping their ids and order; no other event and not the cleanup registry changes |
| CollectionBindings.BindDictionary | EasyBindings/Scripts/Runtime/BindableCollections/BinderExtensions.Collections.cs:38-42 | the same for the dictionary event |
| CollectionBindings.BindSet | Assets/EasyBindings/Scripts/Runtime/BindableCollections/BinderExtensions.Collections.cs:20-24 | the same for the set event |
| CollectionBindings.BindListThenChange | Assets/EasyBindings/Scripts/Tests/TestBindableList.cs:15-32 | after `BindList`, a one-event change reaches the earlier listeners and then the new handler with that event argument |
| CollectionBindings.BindDictionaryThenChange | EasyBindings/Scripts/Tests/TestBindableDictionary.cs:11-42 | the same for `BindDictionary` |
| CollectionBindings.BindSetThenChange | Assets/EasyBindings/Scripts/Tests/TestBindableSet.cs:15-33 | the same for `BindSet` |
| BindableProperty.DefaultComparerIsDefault | Assets/EasyBindings/Scripts/Tests/TestBindableProperty.cs:11-39 | the default comparer calls two values equal iff they are equal |
| BindableProperty.Next | Assets/EasyBindings/Scripts/Tests/TestBindableProperty.cs:11-65 | a value the comparer calls equal is ignored entirely. Any other value is stored and announced once, as `(previous, new)`, to the registered listeners. (Implementation: lines 52-63 of the Assets/ BindableProperty file, which the tests exercise.) |
| BindableProperty.NextTwice | Assets/EasyBindings/Scripts/Tests/TestBindableProperty.cs:23-33 | the same value written twice fires at most once, and the second write reports no change |
| BindableProperty.NextAll | Assets/EasyBindings/Scripts/Tests/TestBindableProperty.cs:43-65 | a run of writes fires at most one event per write |
| BindableProperty.NextAllChained | Assets/EasyBindings/Scripts/Runtime/PropertyChangedEventArg.cs:8-12 | the events of any run of writes chain: the first starts from the initial value, each `nextValue` is the next `oldValue`, each is a real change, and the last ends at the stored value |
| PropertyArithmetic.Wrap | Assets/EasyBindings/Scripts/Runtime/BindablePropertyExtensions.cs:21-26 | an unchecked result is the in-range value congruent to the mathematical one, and equals it when no overflow occurs |
| PropertyArithmetic.WrapCongruent | Assets/EasyBindings/Scripts/Runtime/BindablePropertyExtensions.cs:117-122 | congruent integers wrap to the same `int`/`long` |
| PropertyArithmetic.TruncDiv | Assets/EasyBindings/Scripts/Runtime/BindablePropertyExtensions.cs:57-62 | C# division: magnitude `|a| / |b|`, negative exactly when the signs differ, i.e. rounded toward zero |
| PropertyArithmetic.TruncDivRemainder | Assets/EasyBindings/Scripts/Runtime/BindablePropertyExtensions.cs:153-158 | the remainder left by truncating division is smaller than the divisor and has the dividend's sign |
| PropertyArithmetic.Add | Assets/EasyBindings/Scripts/Runtime/BindablePropertyExtensions.cs:21-26 | the write happens exactly when the comparer does not call the wrapped sum equal to the current value; then the wrapped sum is stored, one `(old, new)` event fires and the listeners of `onValueChanged` are called with it; otherwise nothing is stored, fired or called; the comparer and the event stay the same |
| PropertyArithmetic.Subtract | Assets/EasyBindings/Scripts/Runtime/BindablePropertyExtensions.cs:33-38 | the same for the wrapped difference |
| PropertyArithmetic.Multiply | Assets/EasyBindings/Scripts/Runtime/BindablePropertyExtensions.cs:45-50 | the same for the wrapped product: it fires exactly when the comparer does not call the wrapped product equal to the current value, and then stores it, fires once and calls the listeners; otherwise nothing happens |
| PropertyArithmetic.Divide | Assets/EasyBindings/Scripts/Runtime/BindablePropertyExtensions.cs:57-62 | zero throws `DivideByZeroException` and `MinValue / -1` throws `OverflowException`, both before `Next`; otherwise it fires exactly when the comparer does not call the truncated quotient equal to the current value, and then stores that quotient, reports `(old, quotient)` and calls the listeners with it; otherwise nothing is stored, fired or called |
| PropertyArithmetic.AddChangesIffNonZero | Assets/EasyBindings/Scripts/Runtime/BindablePropertyExtensions.cs:21-38 | under the default comparer, `Add` and `Subtract` fire iff the operand is non-zero, wrap-around included |
| PropertyArithmetic.MultiplyChangesIff | Assets/EasyBindings/Scripts/Runtime/BindablePropertyExtensions.cs:45-50 | under the default comparer, `Multiply(x)` fires iff `CurrentValue * (x - 1)` is not a multiple of 2^32 (2^64 for `long`) |
| PropertyArithmetic.MinValueTimesThreeIsSilent | Assets/EasyBindings/Scripts/Runtime/BindablePropertyExtensions.cs:45-50 | `int.MinValue * 3` wraps back to `int.MinValue`, so `Multiply(3)` fires nothing |
| PropertyArithmetic.TruncDivFixed | Assets/EasyBindings/Scripts/Runtime/BindablePropertyExtensions.cs:57-62 | truncating division leaves a value unchanged iff the value is zero or the divisor is 1 |
| PropertyArithmetic.DivideChangesIff | Assets/EasyBindings/Scripts/Runtime/BindablePropertyExtensions.cs:57-62 | under the default comparer, a `Divide(x)` that reaches `Next` fires iff the current value is non-zero and `x != 1` |
| PropertyArithmetic.IdentityOperandsAreSilent | Assets/EasyBindings/Scripts/Runtime/BindablePropertyExtensions.cs:21-62 | `Add(0)`, `Subtract(0)`, `Multiply(1)` and `Divide(1)` fire nothing |
| PropertyArithmetic.AddThenSubtract | Assets/EasyBindings/Scripts/Runtime/BindablePropertyExtensions.cs:117-134 | `Subtract(x)` after `Add(x)` restores the value, across overflow |
| PropertyArithmetic.AddOverflowWraps | Assets/EasyBindings/Scripts/Runtime/BindablePropertyExtensions.cs:21-26 | `int.MaxValue + 1` stores and reports `int.MinValue` |
| PropertyArithmetic.DivideTruncates | Assets/EasyBindings/Scripts/Runtime/BindablePropertyExtensions.cs:57-62 | `-7 / 2` stores `-3`, not the Euclidean `-4` |
| BindableObject.NotifyPropertyChanged | Assets/EasyBindings/Scripts/Runtime/BindableObject.cs:23-26 | at most one call per listener, and only to delegates registered on the object; the exact calls are stated by `NotifyReachesMatchingListeners` |
| BindableObject.SetStructValue | EasyBindings/Scripts/Runtime/BindableObject.cs:15-26 | the write is skipped, returning false and announcing nothing, iff the comparer calls the values equal; otherwise the field takes the new value and the name is announced once |
| BindableObject.SetClassValue | Assets/EasyBindings/Scripts/Runtime/BindableObject.cs:87-98 | null to null and `Equals` skip the write; null to an object always fires; on a change the field is written and the name announced once |
| BindableObject.SetValue | Assets/EasyBindings/Scripts/Runtime/BindableObject.cs:36-56 | returns true iff exactly one notification carrying the name fired, and then the field holds the new value; otherwise field, listeners and result are untouched |
| BindableObject.SetValueMatchesTypedSetters | Assets/EasyBindings/Scripts/Runtime/BindableObject.cs:36-98 | for reference types `SetValue` is `SetClassValue`; for value types it is `SetStructValue`; the two branches differ only when a current object `Equals(null)` |
| BindableObject.SetClassValueTwice | Assets/EasyBindings/Scripts/Runtime/BindableObject.cs:87-98 | writing the same reference value twice announces at most once, given a reflexive `Equals` |
| BindableObject.SetStructValueTwice | EasyBindings/Scripts/Runtime/BindableObject.cs:15-26 | writing the same struct value twice announces at most once |
| BindableObject.NotifyReachesMatchingListeners | EasyBindings/Scripts/Tests/TestBindableObject.cs:71-89 | when every listener is a plain delegate, each is called once with the name, in registration order; name-filtered listeners for other names are not called; those for this name are each called once, without arguments |
| BindableList.Add | Assets/EasyBindings/Scripts/Tests/TestBindableList.cs:15-32 | appends and fires one `Add` at the new last index (implementation: lines 77-82 of the EasyBindings/ BindableList file) |
| BindableList.Insert | EasyBindings/Scripts/Runtime/BindableCollections/ListChangedEventArg.cs:29-33 | an index outside `0..Count` throws before any event; otherwise the item lands at `index`, the rest shift right, one `Add` at `index` fires (implementation: lines 63-67 of the EasyBindings/ BindableList file) |
| BindableList.RemoveAt | Assets/EasyBindings/Scripts/Tests/TestBindableList.cs:34-51 | an index outside `0..Count-1` throws; otherwise that element goes, the rest shift left, one `Remove` at `index` fires (implementation: lines 70-74 of the EasyBindings/ BindableList file) |
| BindableList.SetItem | Assets/EasyBindings/Scripts/Tests/TestBindableList.cs:53-70 | an out-of-range index throws; otherwise only that position changes and `Update` fires, even for an equal value (implementation: lines 16-24 of the Assets/ BindableList file) |
| BindableList.SetItemTwice | Assets/EasyBindings/Scripts/Tests/TestBindableList.cs:53-70 | the indexer reads back what was written; writing the same element again, or the element already there, leaves the contents unchanged but fires `Update` once more |
| BindableList.SetItemIsRemoveThenInsert | Assets/EasyBindings/Scripts/Tests/TestBindableList.cs:53-70 | the indexer leaves the contents of `RemoveAt(i)` followed by `Insert(i, x)`; only the events differ |
| BindableList.Clear | Assets/EasyBindings/Scripts/Tests/TestBindableList.cs:72-87 | an empty list fires nothing; otherwise the list empties and one `Clear` with index -1 fires (implementation: lines 85-94 of the EasyBindings/ BindableList file) |
| BindableList.ClearTwiceIsSilent | Assets/EasyBindings/Scripts/Tests/TestBindableList.cs:72-87 | a second `Clear` finds the list empty and fires nothing |
| BindableList.RemoveAsWritten | EasyBindings/Scripts/Runtime/BindableCollections/ListChangedEventArg.cs:29-33 | the method as written: a present item yields two `Remove` events for its index (implementation: lines 109-120 of the EasyBindings/ BindableList file, lines 81-92 of the Assets/ one) |
| BindableList.Remove | Assets/EasyBindings/Scripts/Runtime/BindableCollections/ListChangedEventArg.cs:8-12 | corrected: returns true iff the item was present; then its first occurrence, and only it, is removed and one `Remove` fires (the behaviour lines 81-92 of the Assets/ BindableList file evidently intend) |
| BindableList.RemoveFiresTwice | EasyBindings/Scripts/Runtime/BindableCollections/ListChangedEventArg.cs:29-33 | for `[1, 2, 3]` and item 2 the written code calls a listener twice; the corrected version calls it once |
| BindableList.RemoveVersionsAgreeOnContents | EasyBindings/Scripts/Runtime/BindableCollections/ListChangedEventArg.cs:29-33 | both versions leave the same list and result; the written one fires one extra event |
| BindableList.AddIsInsertAtEnd | Assets/EasyBindings/Scripts/Tests/TestBindableList.cs:15-32 | `Add(x)` is `Insert(Count, x)`, events included |
| BindableList.InsertThenRemoveAt | EasyBindings/Scripts/Runtime/BindableCollections/ListChangedEventArg.cs:29-33 | `RemoveAt(i)` undoes `Insert(i, x)`, with `Add` then `Remove` at `i` |
| BindableList.AddThenRemove | Assets/EasyBindings/Scripts/Tests/TestBindableList.cs:34-51 | removing a freshly added item restores the list and fires `Remove` at its index |
| BindableList.EventIndexInRange | Assets/EasyBindings/Scripts/Tests/TestBindableList.cs:21-28 | for `Add`, `Insert` and the indexer, the reported index is a valid position of the list the handler already sees; for `RemoveAt` it is at most that list's length, and removing the last element reports one past the new end |
| BindableSet.Untyped | EasyBindings/Scripts/Runtime/BindableCollections/SetChangedEventArg.cs:12-26 | the copy whose set event carries only the kind reports the same kinds in the same order |
| BindableSet.Add | Assets/EasyBindings/Scripts/Tests/TestBindableSet.cs:15-33 | returns true iff the item was new, and then fires one `Add` carrying it; the set becomes `s + {item}` (implementation: lines 78-87 of the EasyBindings/ BindableSet file) |
| BindableSet.Remove | Assets/EasyBindings/Scripts/Tests/TestBindableSet.cs:35-56 | returns true iff the item was present, and then fires one `Remove` carrying it (implementation: lines 168-177 of the EasyBindings/ BindableSet file) |
| BindableSet.Clear | Assets/EasyBindings/Scripts/Tests/TestBindableSet.cs:58-75 | an empty set fires nothing; otherwise it empties and fires one `Clear` (implementation: lines 66-75 of the EasyBindings/ BindableSet file) |
| BindableSet.Bulk | EasyBindings/Scripts/Runtime/BindableCollections/SetChangedEventArg.cs:12-26 | every in-place set algebra throws `NotSupportedException` naming the operation, touching nothing (implementation: lines 90-111 of the EasyBindings/ BindableSet file) |
| BindableSet.EventIffChanged | Assets/EasyBindings/Scripts/Tests/TestBindableSet.cs:15-75 | each mutation fires exactly one event iff it changed the set |
| BindableSet.AddThenRemove | Assets/EasyBindings/Scripts/Tests/TestBindableSet.cs:35-56 | removing a newly added element restores the set, with `Add` then `Remove` events |
| BindableSet.RepeatIsSilent | Assets/EasyBindings/Scripts/Tests/TestBindableSet.cs:15-75 | a repeated `Add`, `Remove` or `Clear` returns false and fires nothing |
| BindableDictionary.Get | EasyBindings/Scripts/Tests/TestBindableDictionary.cs:21-22 | the getter returns the stored value and throws `KeyNotFoundException` iff the key is absent (implementation: line 22 of the EasyBindings/ BindableDictionary file) |
| BindableDictionary.Add | EasyBindings/Scripts/Tests/TestBindableDictionary.cs:11-27 | a present key throws `ArgumentException` before any event; otherwise the entry is added and one `Add` naming the key fires (implementation: lines 47-51 of the EasyBindings/ BindableDictionary file) |
| BindableDictionary.SetItem | EasyBindings/Scripts/Tests/TestBindableDictionary.cs:66-92 | the `Assets/` setter, with `ReferenceEquals` as a parameter that only calls identical values the same: an existing key holding the very same reference is skipped silently; another existing key is updated with `Update`; a new key behaves as `Add`; the entries always end up as `entries[key := value]` (implementation: lines 79-100 of the Assets/ BindableDictionary file) |
| BindableDictionary.SetItemAlwaysUpdate | EasyBindings/Scripts/Tests/TestBindableDictionary.cs:66-92 | the `EasyBindings/` setter: an existing key is always updated with `Update`; a new key behaves as `Add` (implementation: lines 20-35 of the EasyBindings/ BindableDictionary file) |
| BindableDictionary.SetItemVersionsAgree | EasyBindings/Scripts/Tests/TestBindableDictionary.cs:66-92 | the two setters agree except on a skipped identical write; there both leave the same dictionary, and only the `EasyBindings/` copy fires `Update` |
| BindableDictionary.Remove | EasyBindings/Scripts/Tests/TestBindableDictionary.cs:44-64 | returns true iff the key was present; the key is gone when the single `Remove` event is seen (implementation: lines 58-67 of the EasyBindings/ BindableDictionary file) |
| BindableDictionary.RemovePair | EasyBindings/Scripts/Tests/TestBindableDictionary.cs:44-64 | removes only an entry holding exactly that value, and then fires `Remove` (implementation: lines 101-110 of the EasyBindings/ BindableDictionary file) |
| BindableDictionary.RemovePairIsGuardedRemove | EasyBindings/Scripts/Tests/TestBindableDictionary.cs:44-64 | removing a pair is `Remove(key)` when the stored value is the given one, and otherwise does nothing and fires nothing |
| BindableDictionary.Clear | EasyBindings/Scripts/Tests/TestBindableDictionary.cs:94-110 | an empty dictionary fires nothing; otherwise it empties and fires one `Clear` with `default(TKey)` (implementation: lines 80-89 of the EasyBindings/ BindableDictionary file) |
| BindableDictionary.AddThenRemove | EasyBindings/Scripts/Tests/TestBindableDictionary.cs:44-64 | `Remove(k)` undoes `Add(k, v)`, with `Add` then `Remove` naming `k` |
| BindableDictionary.AddTwiceFails | EasyBindings/Scripts/Tests/TestBindableDictionary.cs:11-27 | a second `Add` of a key throws and keeps the first value (implementation: lines 47-51 of the EasyBindings/ BindableDictionary file) |
| BindableDictionary.RepeatIsSilent | EasyBindings/Scripts/Tests/TestBindableDictionary.cs:94-110 | removing an absent key, and clearing twice, fire nothing |
| BindableDictionary.SetThenGet | EasyBindings/Scripts/Tests/TestBindableDictionary.cs:66-92 | after either setter, the getter returns the value written, a skipped identical write included |
| Scenarios.ComparerScenario | Assets/EasyBindings/Scripts/Tests/TestBindableProperty.cs:67-94 | under a case-insensitive comparer, "someValue" after "SomeValue" is ignored; three events fire in all |
| Scenarios.PropertyBinderScenario | Assets/EasyBindings/Scripts/Tests/TestBindableProperty.cs:96-124 | `Next(1)` calls the handler with 1; a repeat calls nobody; `Next(0)` calls it with 0; after `Dispose`, `Next(100)` stores 100 and calls nobody |
| Scenarios.NamedObjectScenario | Assets/EasyBindings/Scripts/Tests/TestBindableObject.cs:69-87 | the handler filtered on "Age" runs when "Age" is announced, not for "Address" |
| Scenarios.ListenableScenario | Assets/EasyBindings/Scripts/Tests/TestBinder.cs:47-78 | each event reaches exactly its own handlers in binding order; after `Dispose` neither event has a listener |
| Scenarios.CustomCleanupScenario | Assets/EasyBindings/Scripts/Tests/TestBinder.cs:147-182 | three externally subscribed handlers removed by their cleanups are all gone after `Dispose`; all three cleanups ran and nothing was logged |
| Scenarios.DictionaryRebindScenario | EasyBindings/Scripts/Tests/TestBindableDictionary.cs:11-42 | the first handler sees `Add` of key 1; after `Dispose` and a rebinding, the indexer write of key 2 reaches only the new handler, as `Add` |
| Scenarios.SoleListHandler | Assets/EasyBindings/Scripts/Tests/TestBindableList.cs:15-87 | a sole `BindList` handler sees each one-event change exactly once |
| Scenarios.ListScenarios | Assets/EasyBindings/Scripts/Tests/TestBindableList.cs:15-87 | `Add(100)`, `RemoveAt(1)`, `list[0] = -1` and `Clear()` each call the handler once with the kind and index shown, and the list already holds the new contents |

## Left out

- The UGUI adapters, the `UnityEvent` and `BinderExtensions` wrappers, and the CodeGen IL post-processor are Unity and Mono.Cecil glue, so they are not modelled.
- The `float` and `double` overloads of `BindablePropertyExtensions` are left out because they are floating-point arithmetic.
- Logging: `Debug.LogException` and `LogError` are counted (`logged`), not modelled as output.
- The `EasyDelegate`/`Event` registry implementation is not part of this model; only its observable behaviour is. `BindableProperty<T>` itself is modelled: `BindableProperty.Next` follows lines 52-63 of the Assets/ BindableProperty file. The registry is insertion-ordered and `Invoke` visits registrations in order. The following are not modelled:
  - snapshot iteration;
  - re-entrant subscription during `Invoke`;
  - per-listener exception isolation.
- Binders.RunCleanups: whether `InvokeAll`/`SafeInvoke` catch each cleanup's exception separately is unknown, so the isolation policy is the parameter `isolate`. The contract is stated for both values rather than for one.
- An exception thrown by a listener during `Invoke` is not modelled. A call with handler `None` marks where C# would throw `NullReferenceException`.
- `ListenerCount` and list indices are unbounded integers. The 32-bit `int` limit of `Count` is not modelled.
- Custom `IEqualityComparer` for sets and dictionaries is not modelled. Set and map membership use Dafny equality. Null keys are not modelled.
- BindableList.Remove: `List<T>.IndexOf` compares with `EqualityComparer<T>.Default`, which may call a user `Equals`; the model (`BindableList.IndexOf`, and so `BindableList.RemoveAsWritten` too) compares with Dafny equality, so a type whose `Equals` is not structural equality is not covered.
- BindableDictionary.RemovePair: `ICollection<KeyValuePair>.Remove` compares the stored value with `EqualityComparer<TValue>.Default`; the model compares with Dafny equality, for the same reason.
- PropertyArithmetic.Divide: `MinValue / -1` is modelled as the `OverflowException` the .NET runtime throws. The C# language specification leaves it implementation-defined in an unchecked context whether that division throws an `ArithmeticException` or yields the left operand.
- `Contains`, `ContainsKey`, `TryGetValue`, `CopyTo`, the enumerators and the set queries (`IsSubsetOf`, `Overlaps`, …) are left out: they read the wrapped collection and fire nothing.
- The binder's lazily created `handles` list and `disposeEvent` are modelled as always present. A binder that never recorded anything behaves as an empty one.
- Scenarios.ComparerScenario: the case-insensitive comparer folds ASCII letters only, which is enough for the strings the test uses.
- The tests call `BindListEvent`, `BindSetEvent` and `BindDictionaryEvent`. The runtime declares `BindList`, `BindSet` and `BindDictionary`. They are treated as the same hooks.

## Findings

| source | as written | input that shows it | evidently intended | confidence | as-written member | corrected member |
|---|---|---|---|---|---|---|
| BindableList implementation, EasyBindings/ copy, lines 109-120 | `Remove(item)` calls `RemoveAt(index)`, which already fires `Remove`, and then fires `Remove` at the same index again; the `Assets/` copy (lines 81-92) does the same | list `[1, 2, 3]`, `Remove(2)`, one listener: the listener runs twice for one removal | one `Remove` event per removed element, like every other mutation | high (not executed) | BindableList.RemoveAsWritten, BindableList.RemoveFiresTwice | BindableList.Remove |

=== FILE: bindable_dictionary.dfy ===
/** `BindableDictionary<TKey, TValue>`: an `IDictionary` over a
    `Dictionary` that fires a `DictionaryChangedEventArg<TKey>` after each
    change. */
module BindableDictionary {
  import opened Wrappers
  import opened EventArgs
  import opened Listeners

  /** The entries and the dictionary's `dictionaryChangedEvent`. */
  datatype BindableDictionary<K, V> = BindableDictionary(entries: map<K, V>, dictionaryChangedEvent: EventId)

  /** The dictionary afterwards and the events fired. */
  datatype Change<K, V> = Change(dictionary: BindableDictionary<K, V>, events: seq<DictionaryChangedEventArg<K>>)

  datatype Removal<K, V> = Removal(change: Change<K, V>, removed: bool)

  /** The handler calls the events of a change make, in order. */
  function Calls<K, V>(hub: Hub, c: Change<K, V>): (calls: seq<Call<K>>)
    ensures |c.events| == 0 ==> calls == []
    ensures |c.events| == 1 ==> calls == Invoke(hub, c.dictionary.dictionaryChangedEvent, DictionaryChanged(c.events[0]))
  {
    Announce(hub, c.dictionary.dictionaryChangedEvent, seq(|c.events|, i requires 0 <= i < |c.events| => DictionaryChanged(c.events[i])))
  }

  /** The indexer's getter: a missing key throws `KeyNotFoundException`. */
  function Get<K, V>(d: BindableDictionary<K, V>, key: K): (r: Result<V, Exception>)
    ensures r.Success? <==> key in d.entries
    ensures r.Success? ==> r.value == d.entries[key]
    ensures r.Failure? ==> r.error == KeyNotFoundException
  {
    if key in d.entries then Success(d.entries[key]) else Failure(KeyNotFoundException)
  }

  /** `Add(key, value)` and `Add(KeyValuePair)`: `Dictionary.Add` throws
      `ArgumentException` for a key already present, before any event. */
  function Add<K, V>(d: BindableDictionary<K, V>, key: K, value: V): (r: Result<Change<K, V>, Exception>)
    ensures r.Failure? <==> key in d.entries
    ensures r.Failure? ==> r.error.ArgumentException?
    ensures r.Success? ==>
      && r.value.dictionary.entries == d.entries[key := value]
      && |r.value.dictionary.entries| == |d.entries| + 1
      && r.value.dictionary.dictionaryChangedEvent == d.dictionaryChangedEvent
      && r.value.events == [DictionaryChangedEventArg(Some(key), EventType.Add)]
  {
    if key in d.entries then Failure(ArgumentException("key"))
    else Success(Change(d.(entries := d.entries[key := value]), [DictionaryChangedEventArg(Some(key), EventType.Add)]))
  }

  /** `ReferenceEquals`: two values it calls the same are the same value. A
      value type never passes it, which the constantly false test models. */
  ghost predicate IsReferenceTest<V(!new)>(sameReference: (V, V) -> bool) {
    forall a, b :: sameReference(a, b) ==> a == b
  }

  /** The indexer's setter in the copy that skips redundant writes: on a
      present key it does nothing when `TValue` is a class and the old value
      is the very same object (`sameReference`), and otherwise stores and
      fires `Update`; on a missing key it is `Add`. Either way the entries
      end up as `entries[key := value]`. */
  function SetItem<K, V(!new)>(d: BindableDictionary<K, V>, key: K, value: V, sameReference: (V, V) -> bool): (c: Change<K, V>)
    requires IsReferenceTest(sameReference)
    ensures c.dictionary.entries == d.entries[key := value]
    ensures key in d.entries && sameReference(d.entries[key], value) ==> c == Change(d, [])
    ensures key in d.entries && !sameReference(d.entries[key], value) ==>
      c.dictionary.entries == d.entries[key := value] && c.events == [DictionaryChangedEventArg(Some(key), EventType.Update)]
    ensures key !in d.entries ==> Success(c) == Add(d, key, value)
    ensures c.dictionary.dictionaryChangedEvent == d.dictionaryChangedEvent
    ensures c.dictionary.entries.Keys == d.entries.Keys + {key}
  {
    if key in d.entries then
      if sameReference(d.entries[key], value) then
        assert d.entries[key := value] == d.entries;
        Change(d, [])
      else Change(d.(entries := d.entries[key := value]), [DictionaryChangedEventArg(Some(key), EventType.Update)])
    else Add(d, key, value).value
  }

  /** The indexer's setter in the copy without that check: a present key is
      always overwritten and reported as `Update`. */
  function SetItemAlwaysUpdate<K, V>(d: BindableDictionary<K, V>, key: K, value: V): (c: Change<K, V>)
    ensures c.dictionary.entries == d.entries[key := value]
    ensures key in d.entries ==> c.events == [DictionaryChangedEventArg(Some(key), EventType.Update)]
    ensures key !in d.entries ==> Success(c) == Add(d, key, value)
  {
    if key in d.entries then
      Change(d.(entries := d.entries[key := value]), [DictionaryChangedEventArg(Some(key), EventType.Update)])
    else Add(d, key, value).value
  }

  /** The two setters agree except on a skipped identical write, and a
      skipped write loses nothing: it differs only by the `Update` event the
      other copy fires. */
  lemma SetItemVersionsAgree<K, V(!new)>(d: BindableDictionary<K, V>, key: K, value: V, sameReference: (V, V) -> bool)
    requires IsReferenceTest(sameReference)
    ensures !(key in d.entries && sameReference(d.entries[key], value)) ==>
      SetItem(d, key, value, sameReference) == SetItemAlwaysUpdate(d, key, value)
    ensures SetItem(d, key, value, sameReference).dictionary == SetItemAlwaysUpdate(d, key, value).dictionary
    ensures key in d.entries && sameReference(d.entries[key], value) ==>
      SetItem(d, key, value, sameReference).events == []
      && SetItemAlwaysUpdate(d, key, value).events == [DictionaryChangedEventArg(Some(key), EventType.Update)]
  {
  }

  /** `Remove(key)`: fires `Remove` only when the key was present. */
  function Remove<K, V>(d: BindableDictionary<K, V>, key: K): (r: Removal<K, V>)
    ensures r.removed <==> key in d.entries
    ensures r.change.dictionary.entries == d.entries - {key}
    ensures r.change.dictionary.dictionaryChangedEvent == d.dictionaryChangedEvent
    ensures r.change.events == if r.removed then [DictionaryChangedEventArg(Some(key), EventType.Remove)] else []
  {
    if key in d.entries then
      Removal(Change(d.(entries := d.entries - {key}), [DictionaryChangedEventArg(Some(key), EventType.Remove)]), true)
    else Removal(Change(d, []), false)
  }

  /** `Remove(KeyValuePair)`: removes only an entry holding exactly that
      value (compared with the default comparer), and then fires `Remove`. */
  function RemovePair<K, V(==)>(d: BindableDictionary<K, V>, key: K, value: V): (r: Removal<K, V>)
    ensures r.removed <==> key in d.entries && d.entries[key] == value
    ensures r.removed ==> r.change == Remove(d, key).change
    ensures !r.removed ==> r.change == Change(d, [])
  {
    if key in d.entries && d.entries[key] == value then Removal(Remove(d, key).change, true)
    else Removal(Change(d, []), false)
  }

  /** `Remove(KeyValuePair)` is `Remove(key)` when the stored value is the
      given one, and does nothing at all otherwise, also for an absent key. */
  lemma RemovePairIsGuardedRemove<K, V>(d: BindableDictionary<K, V>, key: K, value: V)
    ensures key in d.entries && d.entries[key] == value ==> RemovePair(d, key, value) == Remove(d, key)
    ensures !(key in d.entries && d.entries[key] == value) ==>
      RemovePair(d, key, value).change.dictionary == d && RemovePair(d, key, value).change.events == []
      && !RemovePair(d, key, value).removed
    ensures key !in d.entries ==> RemovePair(d, key, value) == Remove(d, key)
  {
  }

  /** `Clear()`: an empty dictionary fires nothing; otherwise one `Clear`
      event whose key is `default(TKey)`. */
  function Clear<K, V>(d: BindableDictionary<K, V>): (c: Change<K, V>)
    ensures c.dictionary.entries == map[] && c.dictionary.dictionaryChangedEvent == d.dictionaryChangedEvent
    ensures |d.entries| == 0 <==> c.events == []
    ensures |d.entries| > 0 ==> c.events == [DictionaryChangedEventArg(None, EventType.Clear)]
  {
    if |d.entries| == 0 then Change(d, [])
    else Change(d.(entries := map[]), [DictionaryChangedEventArg(None, EventType.Clear)])
  }

  /** `Remove(key)` undoes `Add(key, value)`, and the two events name the key. */
  lemma AddThenRemove<K, V>(d: BindableDictionary<K, V>, key: K, value: V)
    requires key !in d.entries
    ensures var a := Add(d, key, value).value;
      && Remove(a.dictionary, key).change.dictionary == d
      && a.events + Remove(a.dictionary, key).change.events
         == [DictionaryChangedEventArg(Some(key), EventType.Add), DictionaryChangedEventArg(Some(key), EventType.Remove)]
  {
    var a := Add(d, key, value).value;
    assert a.dictionary.entries - {key} == d.entries;
  }

  /** A second `Add` of the same key fails and leaves the first value. */
  lemma AddTwiceFails<K, V>(d: BindableDictionary<K, V>, key: K, v1: V, v2: V)
    requires key !in d.entries
    ensures Add(Add(d, key, v1).value.dictionary, key, v2) == Failure(ArgumentException("key"))
    ensures Get(Add(d, key, v1).value.dictionary, key) == Success(v1)
  {
  }

  /** Removing an absent key, or clearing twice, fires nothing. */
  lemma RepeatIsSilent<K, V>(d: BindableDictionary<K, V>, key: K)
    ensures Remove(Remove(d, key).change.dictionary, key).change.events == []
    ensures Clear(Clear(d).dictionary).events == []
  {
  }

  /** After either setter, the getter returns the value written, skipped
      identical write included. */
  lemma SetThenGet<K, V(!new)>(d: BindableDictionary<K, V>, key: K, value: V, sameReference: (V, V) -> bool)
    requires IsReferenceTest(sameReference)
    ensures Get(SetItem(d, key, value, sameReference).dictionary, key) == Success(value)
    ensures Get(SetItemAlwaysUpdate(d, key, value).dictionary, key) == Success(value)
  {
  }
}

=== FILE: bindable_list.dfy ===
/** `BindableList<T>`: an `IList<T>` over a `List<T>` that fires a
    `ListChangedEventArg` after each change, so handlers already see the new
    contents. */
module BindableList {
  import opened Wrappers
  import opened EventArgs
  import opened Listeners
  import EasyDelegate

  /** The wrapped elements and the list's `listChangedEvent`. */
  datatype BindableList<T> = BindableList(items: seq<T>, listChangedEvent: EventId)

  /** A change: the list afterwards and the events fired, in order. */
  datatype Change<T> = Change(list: BindableList<T>, events: seq<ListChangedEventArg>)

  /** The handler calls the events of a change make. */
  function Calls<T>(hub: Hub, c: Change<T>): (calls: seq<Call<T>>)
    ensures |c.events| == 0 ==> calls == []
    ensures |c.events| == 1 ==> calls == Invoke(hub, c.list.listChangedEvent, ListChanged(c.events[0]))
  {
    Announce(hub, c.list.listChangedEvent, seq(|c.events|, i requires 0 <= i < |c.events| => ListChanged(c.events[i])))
  }

  /** `IndexOf(item)`: the first position holding `item`, or -1. */
  function IndexOf<T(==)>(items: seq<T>, item: T): (i: int)
    ensures -1 <= i < |items|
    ensures i == -1 <==> item !in items
    ensures 0 <= i ==> items[i] == item && item !in items[..i]
    decreases |items|
  {
    if |items| == 0 then -1
    else if items[0] == item then 0
    else
      var j := IndexOf(items[1..], item);
      assert items[1..][..if j < 0 then 0 else j] == items[1..if j < 0 then 1 else j + 1];
      if j < 0 then -1 else j + 1
  }

  /** `Add(item)`: appends and reports `Add` at the new last index. */
  function Add<T>(l: BindableList<T>, item: T): (c: Change<T>)
    ensures c.list.items == l.items + [item]
    ensures c.events == [ListChangedEventArg(|c.list.items| - 1, EventType.Add)]
    ensures c.list.listChangedEvent == l.listChangedEvent
  {
    Change(l.(items := l.items + [item]), [ListChangedEventArg(|l.items|, EventType.Add)])
  }

  /** `Insert(index, item)`: `List<T>.Insert` accepts `0 <= index <= Count`
      and throws `ArgumentOutOfRangeException` otherwise, before any event. */
  function Insert<T>(l: BindableList<T>, index: int, item: T): (r: Result<Change<T>, Exception>)
    ensures r.Failure? <==> !(0 <= index <= |l.items|)
    ensures r.Failure? ==> r.error == ArgumentOutOfRangeException("index")
    ensures r.Success? ==>
      var items := r.value.list.items;
      && |items| == |l.items| + 1
      && items[index] == item
      && items[..index] == l.items[..index]
      && items[index + 1..] == l.items[index..]
      && r.value.events == [ListChangedEventArg(index, EventType.Add)]
      && r.value.list.listChangedEvent == l.listChangedEvent
  {
    if !(0 <= index <= |l.items|) then Failure(ArgumentOutOfRangeException("index"))
    else
      var items := l.items[..index] + [item] + l.items[index..];
      assert items[..index] == l.items[..index];
      assert items[index + 1..] == l.items[index..];
      Success(Change(l.(items := items), [ListChangedEventArg(index, EventType.Add)]))
  }

  /** `RemoveAt(index)`: `0 <= index < Count`, else
      `ArgumentOutOfRangeException`; reports `Remove` at `index`. */
  function RemoveAt<T>(l: BindableList<T>, index: int): (r: Result<Change<T>, Exception>)
    ensures r.Failure? <==> !(0 <= index < |l.items|)
    ensures r.Failure? ==> r.error == ArgumentOutOfRangeException("index")
    ensures r.Success? ==>
      var items := r.value.list.items;
      && |items| == |l.items| - 1
      && items[..index] == l.items[..index]
      && items[index..] == l.items[index + 1..]
      && r.value.events == [ListChangedEventArg(index, EventType.Remove)]
      && r.value.list.listChangedEvent == l.listChangedEvent
  {
    if !(0 <= index < |l.items|) then Failure(ArgumentOutOfRangeException("index"))
    else
      var items := l.items[..index] + l.items[index + 1..];
      assert items[..index] == l.items[..index];
      assert items[index..] == l.items[index + 1..];
      Success(Change(l.(items := items), [ListChangedEventArg(index, EventType.Remove)]))
  }

  /** The indexer's setter: `0 <= index < Count`, else
      `ArgumentOutOfRangeException`. It reports `Update` even when the new
      element equals the old one: there is no comparison. */
  function SetItem<T>(l: BindableList<T>, index: int, item: T): (r: Result<Change<T>, Exception>)
    ensures r.Failure? <==> !(0 <= index < |l.items|)
    ensures r.Failure? ==> r.error == ArgumentOutOfRangeException("index")
    ensures r.Success? ==>
      var items := r.value.list.items;
      && |items| == |l.items|
      && items[index] == item
      && (forall j :: 0 <= j < |items| && j != index ==> items[j] == l.items[j])
      && r.value.events == [ListChangedEventArg(index, EventType.Update)]
      && r.value.list.listChangedEvent == l.listChangedEvent
  {
    if !(0 <= index < |l.items|) then Failure(ArgumentOutOfRangeException("index"))
    else Success(Change(l.(items := l.items[index := item]), [ListChangedEventArg(index, EventType.Update)]))
  }

  /** `Clear()`: an empty list is left alone and fires nothing; otherwise
      all elements go and one `Clear` event with index -1 is fired. */
  function Clear<T>(l: BindableList<T>): (c: Change<T>)
    ensures c.list.items == [] && c.list.listChangedEvent == l.listChangedEvent
    ensures |l.items| == 0 <==> c.events == []
    ensures |l.items| > 0 ==> c.events == [ListChangedEventArg(-1, EventType.Clear)]
  {
    if |l.items| == 0 then Change(l, [])
    else Change(l.(items := []), [ListChangedEventArg(-1, EventType.Clear)])
  }

  datatype Removal<T> = Removal(change: Change<T>, removed: bool)

  /** `Remove(item)` as written: it finds the item, calls `RemoveAt` (which
      already fires `Remove`) and then fires `Remove` a second time for the
      same index. */
  function RemoveAsWritten<T(==)>(l: BindableList<T>, item: T): (r: Removal<T>)
    ensures r.removed <==> item in l.items
    ensures !r.removed ==> r.change == Change(l, [])
    ensures r.removed ==>
      var i := IndexOf(l.items, item);
      r.change.events == [ListChangedEventArg(i, EventType.Remove), ListChangedEventArg(i, EventType.Remove)]
  {
    var index := IndexOf(l.items, item);
    if index >= 0 then
      var c := RemoveAt(l, index).value;
      Removal(Change(c.list, c.events + [ListChangedEventArg(index, EventType.Remove)]), true)
    else Removal(Change(l, []), false)
  }

  /** The elements `RemoveAt` leaves: those before and those after. */
  lemma RemoveAtItems<T>(l: BindableList<T>, index: int)
    requires 0 <= index < |l.items|
    ensures RemoveAt(l, index).value.list.items == l.items[..index] + l.items[index + 1..]
  {
  }

  /** Dropping one position loses exactly that element. */
  lemma DropOne<T>(s: seq<T>, i: int)
    requires 0 <= i < |s|
    ensures multiset(s[..i] + s[i + 1..]) + multiset{s[i]} == multiset(s)
  {
    assert s == s[..i] + [s[i]] + s[i + 1..];
  }

  /** `Remove(item)` with the single `Remove` event every other mutation of
      the list fires: it is `RemoveAt` at the first occurrence. */
  function Remove<T(==)>(l: BindableList<T>, item: T): (r: Removal<T>)
    ensures r.removed <==> item in l.items
    ensures !r.removed ==> r.change == Change(l, [])
    ensures r.removed ==>
      var i := IndexOf(l.items, item);
      && multiset(r.change.list.items) + multiset{item} == multiset(l.items)
      && r.change.list.items == l.items[..i] + l.items[i + 1..]
      && r.change.events == [ListChangedEventArg(i, EventType.Remove)]
  {
    var index := IndexOf(l.items, item);
    if index >= 0 then
      var c := RemoveAt(l, index).value;
      RemoveAtItems(l, index);
      DropOne(l.items, index);
      Removal(c, true)
    else Removal(Change(l, []), false)
  }

  /** The finding on `Remove`: for `[1, 2, 3]` and item `2` the written code
      fires `Remove` at index 1 twice, so a listening delegate runs twice for
      one removal; the corrected version fires it once. */
  lemma RemoveFiresTwice(hub: Hub, e: EventId, handler: HandlerId)
    requires RegistryOf(hub, e).entries == [EasyDelegate.Entry(0, Direct(Some(handler)))]
    ensures var l := BindableList([1, 2, 3], e);
      && RemoveAsWritten(l, 2).change.events == [ListChangedEventArg(1, EventType.Remove), ListChangedEventArg(1, EventType.Remove)]
      && |Calls(hub, RemoveAsWritten(l, 2).change)| == 2
      && Remove(l, 2).change.events == [ListChangedEventArg(1, EventType.Remove)]
      && |Calls(hub, Remove(l, 2).change)| == 1
  {
    var l := BindableList([1, 2, 3], e);
    assert IndexOf(l.items, 2) == 1;
    AnnounceToDirect<int>(hub, e, seq(2, i requires 0 <= i < 2 => ListChanged(ListChangedEventArg(1, EventType.Remove))));
    AnnounceToDirect<int>(hub, e, seq(1, i requires 0 <= i < 1 => ListChanged(ListChangedEventArg(1, EventType.Remove))));
  }

  /** Both versions leave the same elements behind; they differ only in the
      events. */
  lemma RemoveVersionsAgreeOnContents<T>(l: BindableList<T>, item: T)
    ensures RemoveAsWritten(l, item).change.list == Remove(l, item).change.list
    ensures RemoveAsWritten(l, item).removed == Remove(l, item).removed
    ensures Remove(l, item).removed ==> |RemoveAsWritten(l, item).change.events| == |Remove(l, item).change.events| + 1
  {
  }

  /** `Add(item)` is `Insert(Count, item)`. */
  lemma AddIsInsertAtEnd<T>(l: BindableList<T>, item: T)
    ensures Insert(l, |l.items|, item) == Success(Add(l, item))
  {
    assert l.items[..|l.items|] + [item] + l.items[|l.items|..] == l.items + [item];
  }

  /** `RemoveAt(i)` undoes `Insert(i, x)`; the two events name the same
      index. */
  lemma InsertThenRemoveAt<T>(l: BindableList<T>, index: int, item: T)
    requires 0 <= index <= |l.items|
    ensures var ins := Insert(l, index, item).value;
      var rem := RemoveAt(ins.list, index);
      && rem.Success?
      && rem.value.list == l
      && ins.events + rem.value.events
         == [ListChangedEventArg(index, EventType.Add), ListChangedEventArg(index, EventType.Remove)]
  {
    var ins := Insert(l, index, item).value;
    var rem := RemoveAt(ins.list, index).value;
    assert rem.list.items == l.items[..index] + l.items[index..];
    assert l.items[..index] + l.items[index..] == l.items;
  }

  /** `Remove(item)` undoes `Add(item)` when the item was not yet present:
      the first occurrence is then the appended one. */
  lemma AddThenRemove<T>(l: BindableList<T>, item: T)
    requires item !in l.items
    ensures Remove(Add(l, item).list, item).removed
    ensures Remove(Add(l, item).list, item).change.list == l
    ensures Remove(Add(l, item).list, item).change.events == [ListChangedEventArg(|l.items|, EventType.Remove)]
  {
    var a := Add(l, item).list;
    assert a.items[..|l.items|] == l.items;
    assert IndexOf(a.items, item) == |l.items|;
  }

  /** The indexer reads back what it was given. Writing the same element
      again, or writing back the element already there, leaves the contents
      as they are yet fires `Update` once more. */
  lemma SetItemTwice<T>(l: BindableList<T>, index: int, item: T)
    requires 0 <= index < |l.items|
    ensures var c := SetItem(l, index, item).value;
      var again := SetItem(c.list, index, item);
      && c.list.items[index] == item
      && again.Success? && again.value.list == c.list
      && again.value.events == c.events == [ListChangedEventArg(index, EventType.Update)]
    ensures SetItem(l, index, l.items[index]).value.list == l
    ensures SetItem(l, index, l.items[index]).value.events == [ListChangedEventArg(index, EventType.Update)]
  {
    var c := SetItem(l, index, item).value;
    assert c.list.items[index := item] == c.list.items;
    assert l.items[index := l.items[index]] == l.items;
  }

  /** The indexer's contents are those of `RemoveAt(index)` followed by
      `Insert(index, item)`; only the events differ (one `Update` instead of
      `Remove` and `Add`). */
  lemma SetItemIsRemoveThenInsert<T>(l: BindableList<T>, index: int, item: T)
    requires 0 <= index < |l.items|
    ensures var rem := RemoveAt(l, index).value;
      var ins := Insert(rem.list, index, item);
      && ins.Success?
      && SetItem(l, index, item).value.list == ins.value.list
      && rem.events + ins.value.events
         == [ListChangedEventArg(index, EventType.Remove), ListChangedEventArg(index, EventType.Add)]
  {
    var rem := RemoveAt(l, index).value;
    RemoveAtItems(l, index);
    var ins := Insert(rem.list, index, item).value;
    var upd := SetItem(l, index, item).value;
    assert |ins.list.items| == |upd.list.items|;
    forall j | 0 <= j < |upd.list.items|
      ensures ins.list.items[j] == upd.list.items[j]
    {
      if j < index {
        assert ins.list.items[j] == ins.list.items[..index][j];
      } else if j > index {
        assert ins.list.items[j] == ins.list.items[index + 1..][j - index - 1];
      }
    }
  }

  /** A second `Clear` finds the list empty and fires nothing. */
  lemma ClearTwiceIsSilent<T>(l: BindableList<T>)
    ensures Clear(Clear(l).list).list == Clear(l).list
    ensures Clear(Clear(l).list).events == []
  {
  }

  /** The index a non-`Clear` event reports is a valid position of the list
      the handler sees for `Add` and `Update`, and at most its length for
      `Remove`. */
  lemma EventIndexInRange<T>(l: BindableList<T>, index: int, item: T)
    ensures var c := Add(l, item); 0 <= c.events[0].index < |c.list.items|
    ensures Insert(l, index, item).Success? ==>
      var c := Insert(l, index, item).value; 0 <= c.events[0].index < |c.list.items|
    ensures SetItem(l, index, item).Success? ==>
      var c := SetItem(l, index, item).value; 0 <= c.events[0].index < |c.list.items|
    ensures RemoveAt(l, index).Success? ==>
      var c := RemoveAt(l, index).value; 0 <= c.events[0].index <= |c.list.items|
  {
  }
}

=== FILE: bindable_object.dfy ===
/** `BindableObject`: a base class whose setters store a field and announce
    the property's name on `onPropertyChanged` when the value changes. */
module BindableObject {
  import opened Wrappers
  import opened EasyDelegate
  import opened Listeners

  /** The object's `onPropertyChanged` event. */
  datatype Observable = Observable(onPropertyChanged: EventId)

  /** A value of a reference type, or of `Nullable<T>`: `null` or an object. */
  datatype Ref<T> = Null | Obj(target: T)

  /** `typeof(T).IsValueType`. */
  datatype TypeKind = ValueType | ReferenceType

  /** What a setter leaves behind: the field's new content, the boolean it
      returns, the names it announced and the handler calls they caused. */
  datatype Write<F> = Write(field: F, changed: bool, notified: seq<string>, calls: seq<Call<string>>)

  /** `NotifyPropertyChanged(propertyName)`: the name goes to every listener
      of `onPropertyChanged`, in registration order. */
  function NotifyPropertyChanged(hub: Hub, o: Observable, propertyName: string): (calls: seq<Call<string>>)
    ensures |calls| <= ListenerCount(RegistryOf(hub, o.onPropertyChanged))
    ensures forall i :: 0 <= i < |calls| ==> calls[i].handler in HandlersOf(Callbacks(RegistryOf(hub, o.onPropertyChanged)))
  {
    Invoke(hub, o.onPropertyChanged, Name(propertyName))
  }

  /** Both sides null, or a non-null current value that `Equals` the new
      one: the rule `SetClassValue` (and `SetValue` for reference types) uses
      to skip a write. `equals` is the overridable `object.Equals`, which may
      be asked about `null`. */
  predicate SameReference<T>(equals: (T, Ref<T>) -> bool, current: Ref<T>, newValue: Ref<T>) {
    (current.Null? && newValue.Null?) || (current.Obj? && equals(current.target, newValue))
  }

  /** `EqualityComparer<T>.Default.Equals` for a value type: on `Nullable`
      values, two nulls are equal, null and non-null differ, and two values
      compare with the element's `Equals`. Plain structs are never `Null`. */
  predicate SameValue<T>(equals: (T, Ref<T>) -> bool, current: Ref<T>, newValue: Ref<T>) {
    match current
    case Null => newValue.Null?
    case Obj(c) => newValue.Obj? && equals(c, newValue)
  }

  /** The common tail of the three setters: store, announce, report `true`. */
  function Store<F>(hub: Hub, o: Observable, newValue: F, propertyName: string): (w: Write<F>)
    ensures w.field == newValue && w.changed && w.notified == [propertyName]
    ensures w.calls == NotifyPropertyChanged(hub, o, propertyName)
  {
    Write(newValue, true, [propertyName], NotifyPropertyChanged(hub, o, propertyName))
  }

  /** `SetStructValue<T>`: the write is skipped when the default comparer
      calls the values equal. */
  function SetStructValue<T>(hub: Hub, o: Observable, equals: (T, T) -> bool, current: T, newValue: T, propertyName: string): (w: Write<T>)
    ensures w.changed <==> !equals(current, newValue)
    ensures w.changed <==> |w.notified| == 1
    ensures w.field == (if w.changed then newValue else current)
    ensures w.changed ==> w.notified == [propertyName] && w.calls == NotifyPropertyChanged(hub, o, propertyName)
    ensures !w.changed ==> w.notified == [] && w.calls == []
  {
    if equals(current, newValue) then Write(current, false, [], [])
    else Store(hub, o, newValue, propertyName)
  }

  /** `SetClassValue<T>`: the write is skipped for two nulls, or when the
      current object `Equals` the new value. A null current value never
      equals a non-null new one, so `null` to object always fires. */
  function SetClassValue<T>(hub: Hub, o: Observable, equals: (T, Ref<T>) -> bool, current: Ref<T>, newValue: Ref<T>, propertyName: string): (w: Write<Ref<T>>)
    ensures current.Null? ==> (w.changed <==> newValue.Obj?)
    ensures current.Obj? ==> (w.changed <==> !equals(current.target, newValue))
    ensures w.changed <==> |w.notified| == 1
    ensures w.field == (if w.changed then newValue else current)
    ensures w.changed ==> w.notified == [propertyName] && w.calls == NotifyPropertyChanged(hub, o, propertyName)
    ensures !w.changed ==> w.notified == [] && w.calls == []
  {
    if SameReference(equals, current, newValue) then Write(current, false, [], [])
    else Store(hub, o, newValue, propertyName)
  }

  /** `SetValue<T>`: one generic setter that picks the value-type or the
      reference-type test at run time from `typeof(T).IsValueType`. */
  function SetValue<T>(hub: Hub, o: Observable, kind: TypeKind, equals: (T, Ref<T>) -> bool, current: Ref<T>, newValue: Ref<T>, propertyName: string): (w: Write<Ref<T>>)
    ensures w.changed <==> |w.notified| == 1
    ensures w.field == (if w.changed then newValue else current)
    ensures w.changed ==> w.notified == [propertyName] && w.calls == NotifyPropertyChanged(hub, o, propertyName)
    ensures !w.changed ==> w.notified == [] && w.calls == []
  {
    var same := match kind
      case ValueType => SameValue(equals, current, newValue)
      case ReferenceType => SameReference(equals, current, newValue);
    if same then Write(current, false, [], [])
    else Store(hub, o, newValue, propertyName)
  }

  /** `SetValue` for a reference type is exactly `SetClassValue`; for a value
      type it is `SetStructValue` with the element's `Equals`. The two tests
      agree whenever `Equals` honours the .NET rule that no object equals
      `null`; a current object whose `Equals(null)` answers `true` is where
      they part: the reference test skips the write, the value test does not. */
  lemma SetValueMatchesTypedSetters<T>(hub: Hub, o: Observable, equals: (T, Ref<T>) -> bool, current: Ref<T>, newValue: Ref<T>, propertyName: string)
    ensures SetValue(hub, o, ReferenceType, equals, current, newValue, propertyName)
         == SetClassValue(hub, o, equals, current, newValue, propertyName)
    ensures (current.Obj? ==> !equals(current.target, Null)) ==>
      SetValue(hub, o, ValueType, equals, current, newValue, propertyName)
        == SetValue(hub, o, ReferenceType, equals, current, newValue, propertyName)
    ensures current.Obj? && newValue.Null? && equals(current.target, Null) ==>
      SetValue(hub, o, ValueType, equals, current, newValue, propertyName).changed
        && !SetValue(hub, o, ReferenceType, equals, current, newValue, propertyName).changed
    ensures current.Obj? && newValue.Obj? ==>
      var structEquals := (a: T, b: T) => equals(a, Obj(b));
      var s := SetStructValue(hub, o, structEquals, current.target, newValue.target, propertyName);
      SetValue(hub, o, ValueType, equals, current, newValue, propertyName)
        == Write(Obj(s.field), s.changed, s.notified, s.calls)
  {
  }

  /** Writing the same value twice announces it at most once, provided the
      type's `Equals` is reflexive on that value. */
  lemma SetClassValueTwice<T>(hub: Hub, o: Observable, equals: (T, Ref<T>) -> bool, current: Ref<T>, newValue: Ref<T>, propertyName: string)
    requires newValue.Obj? ==> equals(newValue.target, newValue)
    ensures var w := SetClassValue(hub, o, equals, current, newValue, propertyName);
      var w2 := SetClassValue(hub, o, equals, w.field, newValue, propertyName);
      !w2.changed && |w.notified| + |w2.notified| <= 1
  {
  }

  lemma SetStructValueTwice<T>(hub: Hub, o: Observable, equals: (T, T) -> bool, current: T, newValue: T, propertyName: string)
    requires equals(newValue, newValue)
    ensures var w := SetStructValue(hub, o, equals, current, newValue, propertyName);
      var w2 := SetStructValue(hub, o, equals, w.field, newValue, propertyName);
      !w2.changed && |w.notified| + |w2.notified| <= 1
  {
  }

  /** A name-filtered listener (`BindObjectChange(name, action)`) is called
      exactly when the announced name is its own, and plain listeners
      (`BindObjectChange(action)`) receive every name. */
  lemma NotifyReachesMatchingListeners(hub: Hub, o: Observable, propertyName: string)
    ensures var ls := Callbacks(RegistryOf(hub, o.onPropertyChanged));
      (forall i :: 0 <= i < |ls| ==> ls[i].Direct?) ==>
        NotifyPropertyChanged(hub, o, propertyName) == seq(|ls|, i requires 0 <= i < |ls| => Call(ls[i].handler, Name(propertyName)))
    ensures var ls := Callbacks(RegistryOf(hub, o.onPropertyChanged));
      (forall i :: 0 <= i < |ls| ==> ls[i].NameFilter? && ls[i].name != propertyName) ==>
        NotifyPropertyChanged(hub, o, propertyName) == []
    ensures var ls := Callbacks(RegistryOf(hub, o.onPropertyChanged));
      (forall i :: 0 <= i < |ls| ==> ls[i].NameFilter? && ls[i].name == propertyName) ==>
        NotifyPropertyChanged(hub, o, propertyName) == seq(|ls|, i requires 0 <= i < |ls| => Call(Some(ls[i].target), NoArg))
  {
    var ls := Callbacks(RegistryOf(hub, o.onPropertyChanged));
    if forall i :: 0 <= i < |ls| ==> ls[i].Direct? {
      FanOutAllDirect<string>(ls, Name(propertyName));
    }
    if forall i :: 0 <= i < |ls| ==> ls[i].NameFilter? && ls[i].name == propertyName {
      FanOutAllNamed(ls, propertyName);
    }
  }

  lemma {:induction false} FanOutAllNamed(ls: seq<Listener>, propertyName: string)
    requires forall i :: 0 <= i < |ls| ==> ls[i].NameFilter? && ls[i].name == propertyName
    ensures FanOut<string>(ls, Name(propertyName)) == seq(|ls|, i requires 0 <= i < |ls| => Call(Some(ls[i].target), NoArg))
    decreases |ls|
  {
    if |ls| > 0 {
      FanOutAllNamed(ls[1..], propertyName);
    }
  }
}

=== FILE: bindable_property.dfy ===
/** `BindableProperty<T>`: one value, the comparer that decides whether a
    write is a change, and the `onValueChanged` event fired with the old and
    the new value on every change. */
module BindableProperty {
  import opened Wrappers
  import opened EventArgs
  import opened Listeners

  /** `equals` is the `IEqualityComparer<T>` given to the constructor, or the
      default comparer; `onValueChanged` is the id of the property's event. */
  datatype Property<!T> = Property(value: T, equals: (T, T) -> bool, onValueChanged: EventId)

  /** `EqualityComparer<T>.Default`, for types whose equality is structural. */
  function DefaultComparer<T(==)>(): (T, T) -> bool {
    (a: T, b: T) => a == b
  }

  /** The comparer agrees with equality of the modelled values. */
  ghost predicate IsDefaultComparer<T(!new)>(equals: (T, T) -> bool) {
    forall a, b :: equals(a, b) <==> a == b
  }

  lemma DefaultComparerIsDefault<T(!new)>()
    ensures IsDefaultComparer(DefaultComparer<T>())
  {
  }

  /** The outcome of `Next`: the property afterwards, its boolean result, the
      `PropertyChangedEventArg` it fired (none or one), and the handler calls
      that event made. */
  datatype NextResult<!T> = NextResult(
    property: Property<T>,
    changed: bool,
    emitted: seq<PropertyChangedEventArg<T>>,
    calls: seq<Call<T>>)

  /** `Next(nextValue)`: a value the comparer calls equal to the current one
      is ignored entirely; any other value is stored and then announced once
      with the previous value as `oldValue`. */
  function Next<T>(hub: Hub, p: Property<T>, nextValue: T): (r: NextResult<T>)
    ensures r.changed <==> !p.equals(p.value, nextValue)
    ensures r.changed <==> |r.emitted| == 1
    ensures |r.emitted| <= 1
    ensures !r.changed ==> r.property.value == p.value && r.calls == []
    ensures r.changed ==> r.property.value == nextValue
    ensures r.changed ==> r.emitted[0] == PropertyChangedEventArg(p.value, nextValue)
    ensures r.changed ==> r.calls == Invoke(hub, p.onValueChanged, Changed(r.emitted[0]))
    ensures r.property.equals == p.equals && r.property.onValueChanged == p.onValueChanged
  {
    if p.equals(p.value, nextValue) then NextResult(p, false, [], [])
    else
      var arg := PropertyChangedEventArg(p.value, nextValue);
      NextResult(p.(value := nextValue), true, [arg], Invoke(hub, p.onValueChanged, Changed(arg)))
  }

  /** Writing the same value twice fires at most once: the second `Next`
      finds the value already in place. */
  lemma NextTwice<T>(hub: Hub, p: Property<T>, v: T)
    requires p.equals(v, v)
    ensures !Next(hub, Next(hub, p, v).property, v).changed
    ensures |Next(hub, p, v).emitted| + |Next(hub, Next(hub, p, v).property, v).emitted| <= 1
  {
  }

  datatype Trace<!T> = Trace(property: Property<T>, emitted: seq<PropertyChangedEventArg<T>>)

  /** `Next` applied to each of `values` in turn; the events fired, in order. */
  function NextAll<T>(hub: Hub, p: Property<T>, values: seq<T>): (t: Trace<T>)
    ensures |t.emitted| <= |values|
    ensures t.property.equals == p.equals && t.property.onValueChanged == p.onValueChanged
    decreases |values|
  {
    if |values| == 0 then Trace(p, [])
    else
      var r := Next(hub, p, values[0]);
      var rest := NextAll(hub, r.property, values[1..]);
      Trace(rest.property, r.emitted + rest.emitted)
  }

  /** The events of any run of `Next` calls chain up: the first starts from
      the initial value, each one's `nextValue` is the next one's `oldValue`,
      every event is a change according to the comparer, and the stored value
      is the `nextValue` of the last event (or the initial value if none
      fired). No transition is missed or announced twice. */
  ghost predicate Chained<T>(initial: T, equals: (T, T) -> bool, emitted: seq<PropertyChangedEventArg<T>>, final: T) {
    && (|emitted| == 0 ==> final == initial)
    && (|emitted| > 0 ==> emitted[0].oldValue == initial && emitted[|emitted| - 1].nextValue == final)
    && (forall i :: 0 <= i < |emitted| - 1 ==> emitted[i].nextValue == emitted[i + 1].oldValue)
    && (forall i :: 0 <= i < |emitted| ==> !equals(emitted[i].oldValue, emitted[i].nextValue))
  }

  /** An event from `initial` that the comparer calls a change, followed by
      a chain starting at its `nextValue`, is a chain from `initial`. */
  lemma ChainedCons<T>(initial: T, equals: (T, T) -> bool, e: PropertyChangedEventArg<T>, rest: seq<PropertyChangedEventArg<T>>, final: T)
    requires e.oldValue == initial && !equals(e.oldValue, e.nextValue)
    requires Chained(e.nextValue, equals, rest, final)
    ensures Chained(initial, equals, [e] + rest, final)
  {
    var all := [e] + rest;
    forall i | 0 <= i < |all| - 1
      ensures all[i].nextValue == all[i + 1].oldValue
    {
      if i > 0 {
        assert all[i] == rest[i - 1] && all[i + 1] == rest[i];
      }
    }
    forall i | 0 <= i < |all|
      ensures !equals(all[i].oldValue, all[i].nextValue)
    {
      if i > 0 {
        assert all[i] == rest[i - 1];
      }
    }
  }

  lemma {:induction false} NextAllChained<T>(hub: Hub, p: Property<T>, values: seq<T>)
    ensures Chained(p.value, p.equals, NextAll(hub, p, values).emitted, NextAll(hub, p, values).property.value)
    decreases |values|
  {
    if |values| > 0 {
      var r := Next(hub, p, values[0]);
      var rest := NextAll(hub, r.property, values[1..]);
      NextAllChained(hub, r.property, values[1..]);
      assert NextAll(hub, p, values) == Trace(rest.property, r.emitted + rest.emitted);
      if r.changed {
        ChainedCons(p.value, p.equals, r.emitted[0], rest.emitted, rest.property.value);
        assert r.emitted == [r.emitted[0]];
      } else {
        assert r.emitted + rest.emitted == rest.emitted;
      }
    }
  }
}

=== FILE: bindable_set.dfy ===
/** `BindableSet<T>`: an `ISet<T>` over a `HashSet<T>` that fires a set event
    after each effective change. One copy of the runtime reports the element
    (`SetChangedEventArg<T>`), the other only the kind (`SetChangedEventArg`);
    the change is modelled with the element and `Untyped` drops it. */
module BindableSet {
  import opened Wrappers
  import opened EventArgs
  import opened Listeners

  /** The elements and the set's `setChangedEvent`. */
  datatype BindableSet<T> = BindableSet(elements: set<T>, setChangedEvent: EventId)

  /** The set afterwards, what the operation returned, and the events fired. */
  datatype Change<T> = Change(after: BindableSet<T>, result: bool, events: seq<TypedSetChangedEventArg<T>>)

  /** The handler calls the events of a change make, in the copy whose
      event argument carries the element. */
  function Calls<T>(hub: Hub, c: Change<T>): (calls: seq<Call<T>>)
    ensures |c.events| == 0 ==> calls == []
    ensures |c.events| == 1 ==> calls == Invoke(hub, c.after.setChangedEvent, TypedSetChanged(c.events[0]))
  {
    Announce(hub, c.after.setChangedEvent, seq(|c.events|, i requires 0 <= i < |c.events| => TypedSetChanged(c.events[i])))
  }

  /** The events of the copy whose `SetChangedEventArg` carries only the
      kind. */
  function Untyped<T>(events: seq<TypedSetChangedEventArg<T>>): (r: seq<SetChangedEventArg>)
    ensures |r| == |events|
    ensures forall i :: 0 <= i < |r| ==> r[i].eventType == events[i].eventType
  {
    seq(|events|, i requires 0 <= i < |events| => SetChangedEventArg(events[i].eventType))
  }

  /** `Add(item)`: `HashSet.Add` reports whether the item was new; only then
      is `Add` fired. */
  function Add<T>(s: BindableSet<T>, item: T): (c: Change<T>)
    ensures c.after.elements == s.elements + {item} && c.after.setChangedEvent == s.setChangedEvent
    ensures c.result <==> item !in s.elements
    ensures c.result <==> c.after.elements != s.elements
    ensures c.events == if c.result then [TypedSetChangedEventArg(Some(item), EventType.Add)] else []
  {
    if item in s.elements then Change(s, false, [])
    else Change(s.(elements := s.elements + {item}), true, [TypedSetChangedEventArg(Some(item), EventType.Add)])
  }

  /** `Remove(item)`: fires `Remove` only when the item was present. */
  function Remove<T>(s: BindableSet<T>, item: T): (c: Change<T>)
    ensures c.after.elements == s.elements - {item} && c.after.setChangedEvent == s.setChangedEvent
    ensures c.result <==> item in s.elements
    ensures c.result <==> c.after.elements != s.elements
    ensures c.events == if c.result then [TypedSetChangedEventArg(Some(item), EventType.Remove)] else []
  {
    if item in s.elements then
      Change(s.(elements := s.elements - {item}), true, [TypedSetChangedEventArg(Some(item), EventType.Remove)])
    else Change(s, false, [])
  }

  /** `Clear()`: an empty set fires nothing; otherwise one `Clear` event
      carrying `default(T)`. `Clear` returns `void`; `result` reports
      whether anything was removed. */
  function Clear<T>(s: BindableSet<T>): (c: Change<T>)
    ensures c.after.elements == {} && c.after.setChangedEvent == s.setChangedEvent
    ensures c.result <==> s.elements != {}
    ensures c.events == if c.result then [TypedSetChangedEventArg(None, EventType.Clear)] else []
  {
    if s.elements == {} then Change(s, false, [])
    else Change(s.(elements := {}), true, [TypedSetChangedEventArg(None, EventType.Clear)])
  }

  /** The in-place set algebra a `BindableSet` refuses. */
  datatype BulkOperation = SymmetricExceptWith | UnionWith | ExceptWith | IntersectWith

  function OperationName(op: BulkOperation): string {
    match op
    case SymmetricExceptWith => "SymmetricExceptWith"
    case UnionWith => "UnionWith"
    case ExceptWith => "ExceptWith"
    case IntersectWith => "IntersectWith"
  }

  /** Every bulk mutation throws `NotSupportedException` whatever `other`
      holds, so the set and its listeners are never touched by one. */
  function Bulk<T>(s: BindableSet<T>, op: BulkOperation, other: seq<T>): (r: Result<Change<T>, Exception>)
    ensures r.Failure? && r.error.NotSupportedException?
    ensures r.error.operation == OperationName(op)
  {
    Failure(NotSupportedException(OperationName(op)))
  }

  /** Every change fires exactly one event when it changes the set and none
      otherwise. */
  lemma EventIffChanged<T>(s: BindableSet<T>, item: T)
    ensures |Add(s, item).events| == 1 <==> Add(s, item).after != s
    ensures |Remove(s, item).events| == 1 <==> Remove(s, item).after != s
    ensures |Clear(s).events| == 1 <==> Clear(s).after != s
    ensures |Add(s, item).events| <= 1 && |Remove(s, item).events| <= 1 && |Clear(s).events| <= 1
  {
  }

  /** Adding a new element and removing it again restores the set, with one
      `Add` and one `Remove` event for that element. */
  lemma AddThenRemove<T>(s: BindableSet<T>, item: T)
    requires item !in s.elements
    ensures Remove(Add(s, item).after, item).after == s
    ensures Add(s, item).events + Remove(Add(s, item).after, item).events
         == [TypedSetChangedEventArg(Some(item), EventType.Add), TypedSetChangedEventArg(Some(item), EventType.Remove)]
  {
  }

  /** A second `Add` of the same element returns `false` and fires nothing;
      so does a second `Remove` or a second `Clear`. */
  lemma RepeatIsSilent<T>(s: BindableSet<T>, item: T)
    ensures var c := Add(Add(s, item).after, item); !c.result && c.events == []
    ensures var c := Remove(Remove(s, item).after, item); !c.result && c.events == []
    ensures var c := Clear(Clear(s).after); !c.result && c.events == []
  {
  }
}

=== FILE: binder_bind.dfy ===
/** The `Bind…` entry points of `Binder`: each checks its arguments, adds one
    listener to the observed event and records the handle, so that
    `Dispose` can remove it again. */
module BinderBindings {
  import opened Wrappers
  import opened EventArgs
  import opened EasyDelegate
  import opened Listeners
  import opened Binders
  import opened BindableProperty
  import opened BindableObject

  /** Every registry and one binder. */
  datatype Bindings = Bindings(hub: Hub, binder: Binder)

  /** What binding `l` to event `e` promises, going from `s` to `r`: one
      handle is recorded after the earlier ones, kept as they were; it names
      a registration of `e` that is live now and (in a valid hub) was not
      before; `l` is appended to the registrations of `e` under that handle,
      the earlier ones keeping their ids and order; no other event and not
      the cleanup registry is touched. */
  ghost predicate Attached(s: Bindings, r: Bindings, e: EventId, l: Listener) {
    var n := |s.binder.handles|;
    && |r.binder.handles| == n + 1
    && r.binder.handles[..n] == s.binder.handles
    && r.binder.handles[n].event == e
    && Live(r.hub, r.binder.handles[n])
    && (ValidHub(s.hub) ==> ValidHub(r.hub) && !Live(s.hub, r.binder.handles[n]))
    && RegistryOf(r.hub, e).entries == RegistryOf(s.hub, e).entries + [Entry(r.binder.handles[n].id, l)]
    && Callbacks(RegistryOf(r.hub, e)) == Callbacks(RegistryOf(s.hub, e)) + [l]
    && (forall f :: f != e ==> RegistryOf(r.hub, f) == RegistryOf(s.hub, f))
    && r.binder.disposeEvent == s.binder.disposeEvent
  }

  /** `evt.AddListener(listener)` followed by `Record(handle)`. */
  function Attach(s: Bindings, e: EventId, l: Listener): (r: Bindings)
    ensures |r.binder.handles| == |s.binder.handles| + 1
    ensures r.binder.handles[..|s.binder.handles|] == s.binder.handles
    ensures var h := r.binder.handles[|s.binder.handles|]; h.event == e && Live(r.hub, h)
    ensures ValidHub(s.hub) ==> ValidHub(r.hub) && !Live(s.hub, r.binder.handles[|s.binder.handles|])
    ensures RegistryOf(r.hub, e).entries == RegistryOf(s.hub, e).entries + [Entry(r.binder.handles[|s.binder.handles|].id, l)]
    ensures Callbacks(RegistryOf(r.hub, e)) == Callbacks(RegistryOf(s.hub, e)) + [l]
    ensures forall f :: f != e ==> RegistryOf(r.hub, f) == RegistryOf(s.hub, f)
    ensures r.binder.disposeEvent == s.binder.disposeEvent
  {
    var sub := Subscribe(s.hub, e, l);
    Bindings(sub.hub, Record(s.binder, Some(sub.handle)))
  }

  /** The three `BindPropertyChange` overloads and the private
      `BindPropertyChangeInternal` they share. A null property throws
      `ArgumentNullException`. The overloads hand the internal method a
      lambda around the user's delegate, which is never null, so even a null
      user delegate is registered (and throws when the property changes). */
  function BindPropertyChange<T>(s: Bindings, property: Option<Property<T>>, projection: Projection, handler: Option<HandlerId>): (r: Result<Bindings, Exception>)
    ensures property.None? <==> r.Failure?
    ensures r.Failure? ==> r.error == ArgumentNullException("bindableProperty")
    ensures r.Success? ==> Attached(s, r.value, property.value.onValueChanged, Projecting(projection, handler))
  {
    match property
    case None => Failure(ArgumentNullException("bindableProperty"))
    case Some(p) => Success(Attach(s, p.onValueChanged, Projecting(projection, handler)))
  }

  /** What `BindPropertyValue` leaves behind: the bindings, the immediate
      call with the current value, and the exception it ended with. */
  datatype ValueBinding<T> = ValueBinding(state: Bindings, calls: seq<Call<T>>, error: Option<Exception>)

  /** `BindPropertyValue(property, handler)`: `BindPropertyChange` with the
      `Action<T>` overload, then one immediate call with the current value.
      A null handler is registered first and then throws
      `NullReferenceException` on that immediate call. */
  function BindPropertyValue<T>(s: Bindings, property: Option<Property<T>>, handler: Option<HandlerId>): (r: ValueBinding<T>)
    ensures property.None? ==> r == ValueBinding(s, [], Some(ArgumentNullException("bindableProperty")))
    ensures property.Some? ==> Success(r.state) == BindPropertyChange(s, property, NextOnly, handler)
    ensures property.Some? ==> Attached(s, r.state, property.value.onValueChanged, Projecting(NextOnly, handler))
    ensures property.Some? && handler.Some? ==> r.calls == [Call(handler, One(property.value.value))] && r.error.None?
    ensures property.Some? && handler.None? ==> r.calls == [] && r.error == Some(NullReferenceException)
  {
    match BindPropertyChange(s, property, NextOnly, handler)
    case Failure(err) => ValueBinding(s, [], Some(err))
    case Success(state) =>
      if handler.None? then ValueBinding(state, [], Some(NullReferenceException))
      else ValueBinding(state, [Call(handler, One(property.value.value))], None)
  }

  /** `BindObjectChange(object, handler)`: a null object throws
      `ArgumentNullException`; a null handler is ignored; otherwise the
      handler listens to every property name. */
  function BindObjectChange(s: Bindings, o: Option<Observable>, handler: Option<HandlerId>): (r: Result<Bindings, Exception>)
    ensures o.None? <==> r.Failure?
    ensures r.Failure? ==> r.error == ArgumentNullException("bindableObject")
    ensures o.Some? && handler.None? ==> r == Success(s)
    ensures o.Some? && handler.Some? ==> Attached(s, r.value, o.value.onPropertyChanged, Direct(handler))
    ensures r.Success? ==> forall f :: f != o.value.onPropertyChanged ==> RegistryOf(r.value.hub, f) == RegistryOf(s.hub, f)
  {
    if o.None? then Failure(ArgumentNullException("bindableObject"))
    else if handler.None? then Success(s)
    else Success(Attach(s, o.value.onPropertyChanged, Direct(handler)))
  }

  /** `BindObjectChange(object, propertyName, handler)`: null object, then
      null or empty name, then null handler, are checked in that order;
      otherwise the handler listens through a filter on the name. */
  function BindObjectChangeNamed(s: Bindings, o: Option<Observable>, propertyName: Option<string>, handler: Option<HandlerId>): (r: Result<Bindings, Exception>)
    ensures o.None? ==> r == Failure(ArgumentNullException("bindableObject"))
    ensures o.Some? && (propertyName.None? || propertyName.value == "") ==> r == Failure(ArgumentException("propertyName"))
    ensures r.Success? <==> o.Some? && propertyName.Some? && propertyName.value != ""
    ensures r.Success? && handler.None? ==> r.value == s
    ensures r.Success? && handler.Some? ==>
      Attached(s, r.value, o.value.onPropertyChanged, NameFilter(propertyName.value, handler.value))
    ensures r.Success? ==> forall f :: f != o.value.onPropertyChanged ==> RegistryOf(r.value.hub, f) == RegistryOf(s.hub, f)
  {
    if o.None? then Failure(ArgumentNullException("bindableObject"))
    else if propertyName.None? || propertyName.value == "" then Failure(ArgumentException("propertyName"))
    else if handler.None? then Success(s)
    else Success(Attach(s, o.value.onPropertyChanged, NameFilter(propertyName.value, handler.value)))
  }

  /** An `EasyEvent` argument: a usable event, or one that cannot be
      listened to (a default, not `Valid`, `EasyEvent` struct; in the copy
      where events are classes, a null reference). */
  datatype EasyEvent = Unusable | EasyEvent(event: EventId)

  /** `BindEvent(evt, handler)`, generic or not: an unusable event throws
      `ArgumentNullException`; a null handler is ignored; otherwise the
      handler itself is registered. */
  function BindEvent(s: Bindings, evt: EasyEvent, handler: Option<HandlerId>): (r: Result<Bindings, Exception>)
    ensures evt.Unusable? <==> r.Failure?
    ensures r.Failure? ==> r.error == ArgumentNullException("evt")
    ensures evt.EasyEvent? && handler.None? ==> r == Success(s)
    ensures evt.EasyEvent? && handler.Some? ==> Attached(s, r.value, evt.event, Direct(handler))
    ensures r.Success? ==> forall f :: f != evt.event ==> RegistryOf(r.value.hub, f) == RegistryOf(s.hub, f)
  {
    match evt
    case Unusable => Failure(ArgumentNullException("evt"))
    case EasyEvent(e) => if handler.None? then Success(s) else Success(Attach(s, e, Direct(handler)))
  }

  /** An `IListenable` argument: null, an `EasyEvent` that is not `Valid`,
      or something to listen to. */
  datatype Listenable = NullListenable | InvalidEasyEvent | Listenable(event: EventId)

  /** `BindListenable(listenable, handler)`: the invalid `EasyEvent` check
      comes first, then the null check, both throwing
      `ArgumentNullException`; a null handler is ignored. */
  function BindListenable(s: Bindings, listenable: Listenable, handler: Option<HandlerId>): (r: Result<Bindings, Exception>)
    ensures !listenable.Listenable? <==> r.Failure?
    ensures r.Failure? ==> r.error == ArgumentNullException("listenable")
    ensures listenable.Listenable? && handler.None? ==> r == Success(s)
    ensures listenable.Listenable? && handler.Some? ==> Attached(s, r.value, listenable.event, Direct(handler))
    ensures r.Success? ==> forall f :: f != listenable.event ==> RegistryOf(r.value.hub, f) == RegistryOf(s.hub, f)
  {
    if listenable.InvalidEasyEvent? then Failure(ArgumentNullException("listenable"))
    else if listenable.NullListenable? then Failure(ArgumentNullException("listenable"))
    else if handler.None? then Success(s)
    else Success(Attach(s, listenable.event, Direct(handler)))
  }

  /** After `BindPropertyChange`, a value-changing `Next` makes every call
      the earlier listeners made, and then one more: the new handler with
      the old and new value unpacked as its overload dictates. A `Next` the
      comparer rejects calls nobody. */
  lemma BindThenNext<T>(s: Bindings, p: Property<T>, projection: Projection, handler: Option<HandlerId>, nextValue: T)
    ensures var b := BindPropertyChange(s, Some(p), projection, handler).value;
      var r := Next(b.hub, p, nextValue);
      && (r.changed ==> r.calls == Next(s.hub, p, nextValue).calls + [Call(handler, Project(projection, PropertyChangedEventArg(p.value, nextValue)))])
      && (!r.changed ==> r.calls == [])
  {
    var b := BindPropertyChange(s, Some(p), projection, handler).value;
    var e := p.onValueChanged;
    var arg: Arg<T> := Changed(PropertyChangedEventArg(p.value, nextValue));
    FanOutAppend(Callbacks(RegistryOf(s.hub, e)), [Projecting(projection, handler)], arg);
  }

  /** After the name-filtered `BindObjectChange`, announcing a name makes the
      earlier listeners' calls and then calls the new handler exactly when
      the name is the one it was bound to (ordinal comparison). */
  lemma BindNamedThenNotify(s: Bindings, o: Observable, name: string, handler: HandlerId, announced: string)
    requires name != ""
    ensures var b := BindObjectChangeNamed(s, Some(o), Some(name), Some(handler)).value;
      NotifyPropertyChanged(b.hub, o, announced)
        == NotifyPropertyChanged(s.hub, o, announced) + (if announced == name then [Call(Some(handler), NoArg)] else [])
  {
    var e := o.onPropertyChanged;
    var arg: Arg<string> := Name(announced);
    FanOutAppend(Callbacks(RegistryOf(s.hub, e)), [NameFilter(name, handler)], arg);
  }

  /** `BindObjectChange(object, handler)` then `NotifyPropertyChanged`: the
      new handler receives every announced name, after the earlier ones. */
  lemma BindObjectThenNotify(s: Bindings, o: Observable, handler: HandlerId, announced: string)
    ensures var b := BindObjectChange(s, Some(o), Some(handler)).value;
      NotifyPropertyChanged(b.hub, o, announced)
        == NotifyPropertyChanged(s.hub, o, announced) + [Call(Some(handler), Name(announced))]
  {
    var e := o.onPropertyChanged;
    var arg: Arg<string> := Name(announced);
    FanOutAppend(Callbacks(RegistryOf(s.hub, e)), [Direct(Some(handler))], arg);
  }

  /** After `BindEvent`, invoking the event makes the earlier listeners'
      calls and then calls the new handler with the payload as fired; a
      null handler leaves the calls as they were. */
  lemma BindEventThenInvoke<T>(s: Bindings, e: EventId, handler: Option<HandlerId>, payload: Arg<T>)
    ensures var b := BindEvent(s, EasyEvent(e), handler).value;
      Invoke(b.hub, e, payload)
        == Invoke(s.hub, e, payload) + (if handler.Some? then [Call(handler, payload)] else [])
  {
    if handler.Some? {
      FanOutAppend(Callbacks(RegistryOf(s.hub, e)), [Direct(handler)], payload);
    }
  }

  /** After `BindListenable`, invoking the event makes the earlier
      listeners' calls and then calls the new handler with the payload; a
      null handler leaves the calls as they were. */
  lemma BindListenableThenInvoke<T>(s: Bindings, e: EventId, handler: Option<HandlerId>, payload: Arg<T>)
    ensures var b := BindListenable(s, Listenable(e), handler).value;
      Invoke(b.hub, e, payload)
        == Invoke(s.hub, e, payload) + (if handler.Some? then [Call(handler, payload)] else [])
  {
    if handler.Some? {
      FanOutAppend(Callbacks(RegistryOf(s.hub, e)), [Direct(handler)], payload);
    }
  }

  /** `Dispose` undoes a binding: bind, dispose, and the new registration
      is gone, while no registration became live that was not live before
      the bind. When the binder had made every registration on the
      property's event, a later `Next` calls nobody. */
  lemma BindThenDispose<T>(s: Bindings, p: Property<T>, projection: Projection, handler: Option<HandlerId>, isolate: bool, nextValue: T)
    requires ValidHub(s.hub)
    ensures var b := BindPropertyChange(s, Some(p), projection, handler).value;
      var d := Dispose(b.hub, b.binder, isolate);
      var h := b.binder.handles[|s.binder.handles|];
      && !Live(d.hub, h)
      && !Live(s.hub, h)
      && (forall g :: Live(d.hub, g) ==> Live(s.hub, g))
      && ((forall i :: 0 <= i < |RegistryOf(s.hub, p.onValueChanged).entries| ==>
             EventHandle(p.onValueChanged, RegistryOf(s.hub, p.onValueChanged).entries[i].id) in s.binder.handles)
          ==> Next(d.hub, p, nextValue).calls == [])
  {
    var b := BindPropertyChange(s, Some(p), projection, handler).value;
    var d := Dispose(b.hub, b.binder, isolate);
    var h := b.binder.handles[|s.binder.handles|];
    forall g | Live(d.hub, g) ensures Live(s.hub, g) {
      DisposeLive(b.hub, b.binder, isolate, g);
      SubscribeLive(s.hub, p.onValueChanged, Projecting(projection, handler), g);
    }
    var e := p.onValueChanged;
    if forall i :: 0 <= i < |RegistryOf(s.hub, e).entries| ==> EventHandle(e, RegistryOf(s.hub, e).entries[i].id) in s.binder.handles {
      AllRecorded(s, b, e, Projecting(projection, handler));
      DisposeSilences(b.hub, b.binder, isolate, e, Changed(PropertyChangedEventArg(p.value, nextValue)));
    }
  }

  /** When the binder had recorded every registration of `e`, it has still
      recorded every one after binding another listener to `e`. */
  lemma AllRecorded(s: Bindings, r: Bindings, e: EventId, l: Listener)
    requires Attached(s, r, e, l)
    requires forall i :: 0 <= i < |RegistryOf(s.hub, e).entries| ==> EventHandle(e, RegistryOf(s.hub, e).entries[i].id) in s.binder.handles
    ensures forall i :: 0 <= i < |RegistryOf(r.hub, e).entries| ==> EventHandle(e, RegistryOf(r.hub, e).entries[i].id) in r.binder.handles
  {
    var n := |s.binder.handles|;
    var before := RegistryOf(s.hub, e).entries;
    forall i | 0 <= i < |RegistryOf(r.hub, e).entries|
      ensures EventHandle(e, RegistryOf(r.hub, e).entries[i].id) in r.binder.handles
    {
      if i < |before| {
        var g := EventHandle(e, before[i].id);
        assert RegistryOf(r.hub, e).entries[i] == before[i];
        var j :| 0 <= j < n && s.binder.handles[j] == g;
        assert r.binder.handles[j] == g;
      } else {
        assert RegistryOf(r.hub, e).entries[i].id == r.binder.handles[n].id;
        assert EventHandle(e, r.binder.handles[n].id) == r.binder.handles[n];
      }
    }
  }

  /** A registration live after `Subscribe` was live before, or is the new
      one. */
  lemma SubscribeLive(hub: Hub, e: EventId, l: Listener, g: EventHandle)
    ensures Live(Subscribe(hub, e, l).hub, g) <==> Live(hub, g) || g == Subscribe(hub, e, l).handle
  {
    var sub := Subscribe(hub, e, l);
    var a := AddListener(RegistryOf(hub, e), l);
    assert sub.hub == hub[e := a.registry] && sub.handle == EventHandle(e, a.handle);
    Replace(hub, e, a.registry);
    AddListenerContains(RegistryOf(hub, e), l, g.id);
  }

  /** A disposed binder binds again as a fresh one: the new binding is its
      only recorded handle, and it is live. */
  lemma RebindAfterDispose<T>(s: Bindings, p: Property<T>, projection: Projection, handler: Option<HandlerId>, isolate: bool)
    ensures var d := Dispose(s.hub, s.binder, isolate);
      var r := BindPropertyChange(Bindings(d.hub, d.binder), Some(p), projection, handler).value;
      |r.binder.handles| == 1 && Live(r.hub, r.binder.handles[0])
  {
  }
}

=== FILE: binder_collections.dfy ===
/** The `Binder` extension methods for the bindable collections. Unlike the
    `Bind…` methods of `Binder` itself they check nothing: a null collection
    throws `NullReferenceException` when its event field is read, and the
    handler is registered as given, null or not. */
module CollectionBindings {
  import opened Wrappers
  import opened EventArgs
  import opened EasyDelegate
  import opened Listeners
  import opened Binders
  import opened BinderBindings
  import L = BindableList
  import S = BindableSet
  import D = BindableDictionary

  /** `binder.BindList(list, handler)`. */
  function BindList<T>(s: Bindings, list: Option<L.BindableList<T>>, handler: Option<HandlerId>): (r: Result<Bindings, Exception>)
    ensures list.None? <==> r.Failure?
    ensures r.Failure? ==> r.error == NullReferenceException
    ensures r.Success? ==> Attached(s, r.value, list.value.listChangedEvent, Direct(handler))
  {
    match list
    case None => Failure(NullReferenceException)
    case Some(l) => Success(Attach(s, l.listChangedEvent, Direct(handler)))
  }

  /** `binder.BindDictionary(dictionary, handler)`. */
  function BindDictionary<K, V>(s: Bindings, dictionary: Option<D.BindableDictionary<K, V>>, handler: Option<HandlerId>): (r: Result<Bindings, Exception>)
    ensures dictionary.None? <==> r.Failure?
    ensures r.Failure? ==> r.error == NullReferenceException
    ensures r.Success? ==> Attached(s, r.value, dictionary.value.dictionaryChangedEvent, Direct(handler))
  {
    match dictionary
    case None => Failure(NullReferenceException)
    case Some(d) => Success(Attach(s, d.dictionaryChangedEvent, Direct(handler)))
  }

  /** `binder.BindSet(set, handler)`; the handler takes the typed or the
      untyped set event depending on the copy, which does not change what is
      registered. */
  function BindSet<T>(s: Bindings, bindableSet: Option<S.BindableSet<T>>, handler: Option<HandlerId>): (r: Result<Bindings, Exception>)
    ensures bindableSet.None? <==> r.Failure?
    ensures r.Failure? ==> r.error == NullReferenceException
    ensures r.Success? ==> Attached(s, r.value, bindableSet.value.setChangedEvent, Direct(handler))
  {
    match bindableSet
    case None => Failure(NullReferenceException)
    case Some(x) => Success(Attach(s, x.setChangedEvent, Direct(handler)))
  }

  /** After `BindList`, every single-event change of the list reaches the
      earlier listeners and then the new handler, with the event argument
      as fired. */
  lemma BindListThenChange<T>(s: Bindings, l: L.BindableList<T>, handler: Option<HandlerId>, c: L.Change<T>)
    requires c.list.listChangedEvent == l.listChangedEvent && |c.events| == 1
    ensures L.Calls(BindList(s, Some(l), handler).value.hub, c)
         == L.Calls(s.hub, c) + [Call(handler, ListChanged(c.events[0]))]
  {
    var arg: Arg<T> := ListChanged(c.events[0]);
    FanOutAppend(Callbacks(RegistryOf(s.hub, l.listChangedEvent)), [Direct(handler)], arg);
  }

  /** The same for `BindDictionary`. */
  lemma BindDictionaryThenChange<K, V>(s: Bindings, d: D.BindableDictionary<K, V>, handler: Option<HandlerId>, c: D.Change<K, V>)
    requires c.dictionary.dictionaryChangedEvent == d.dictionaryChangedEvent && |c.events| == 1
    ensures D.Calls(BindDictionary(s, Some(d), handler).value.hub, c)
         == D.Calls(s.hub, c) + [Call(handler, DictionaryChanged(c.events[0]))]
  {
    var arg: Arg<K> := DictionaryChanged(c.events[0]);
    FanOutAppend(Callbacks(RegistryOf(s.hub, d.dictionaryChangedEvent)), [Direct(handler)], arg);
  }

  /** The same for `BindSet`. */
  lemma BindSetThenChange<T>(s: Bindings, x: S.BindableSet<T>, handler: Option<HandlerId>, c: S.Change<T>)
    requires c.after.setChangedEvent == x.setChangedEvent && |c.events| == 1
    ensures S.Calls(BindSet(s, Some(x), handler).value.hub, c)
         == S.Calls(s.hub, c) + [Call(handler, TypedSetChanged(c.events[0]))]
  {
    var arg: Arg<T> := TypedSetChanged(c.events[0]);
    FanOutAppend(Callbacks(RegistryOf(s.hub, x.setChangedEvent)), [Direct(handler)], arg);
  }
}

=== FILE: binders.dfy ===
/** `Binder`: the subscription scope. It records the handle of every binding
    made through it and any custom cleanup actions, and on `Dispose`
    unlistens every handle, runs the cleanup actions with their exceptions
    caught and logged, and empties both lists. Nothing marks it as disposed,
    so the same binder can keep binding afterwards.

    Both fields are created lazily in C#; a `null` list and an empty one
    behave alike everywhere, so the model starts from empty ones. */
module Binders {
  import opened Wrappers
  import opened EasyDelegate
  import opened Listeners

  /** A cleanup action registered with `RegisterCustomCleanupAction`: the
      subscriptions it detaches when run, and whether it then throws. */
  datatype CleanupAction = CleanupAction(detaches: seq<EventHandle>, throws: bool)

  /** `handles` in recording order; `disposeEvent` holds the cleanups. */
  datatype Binder = Binder(handles: seq<EventHandle>, disposeEvent: Registry<CleanupAction>)

  function NewBinder(): (b: Binder)
    ensures b.handles == [] && ListenerCount(b.disposeEvent) == 0 && Valid(b.disposeEvent)
  {
    Binder([], Empty())
  }

  /** `Record(handle)`: a null handle is ignored; any other is appended, so
      the recorded order is the order of the calls. */
  function Record(b: Binder, handle: Option<EventHandle>): (r: Binder)
    ensures handle.None? ==> r == b
    ensures handle.Some? ==> |r.handles| == |b.handles| + 1 && r.handles[|b.handles|] == handle.value
    ensures r.handles[..|b.handles|] == b.handles
    ensures r.disposeEvent == b.disposeEvent
  {
    match handle
    case None => b
    case Some(h) => b.(handles := b.handles + [h])
  }

  /** The non-null handles of `hs`, in order. */
  function Present(hs: seq<Option<EventHandle>>): seq<EventHandle> {
    if |hs| == 0 then []
    else (if hs[0].Some? then [hs[0].value] else []) + Present(hs[1..])
  }

  /** `Record` applied to each of `hs` in turn. */
  function RecordAll(b: Binder, hs: seq<Option<EventHandle>>): (r: Binder)
    ensures r.disposeEvent == b.disposeEvent
    decreases |hs|
  {
    if |hs| == 0 then b else RecordAll(Record(b, hs[0]), hs[1..])
  }

  /** Recording a run of handles appends exactly the non-null ones, in call
      order. */
  lemma {:induction false} RecordAllAppends(b: Binder, hs: seq<Option<EventHandle>>)
    ensures RecordAll(b, hs).handles == b.handles + Present(hs)
    decreases |hs|
  {
    if |hs| > 0 {
      RecordAllAppends(Record(b, hs[0]), hs[1..]);
      assert Record(b, hs[0]).handles == b.handles + (if hs[0].Some? then [hs[0].value] else []);
    }
  }

  /** `RegisterCustomCleanupAction(action)`: null is ignored; any other
      action joins the end of the cleanup list. */
  function RegisterCustomCleanupAction(b: Binder, action: Option<CleanupAction>): (r: Binder)
    ensures action.None? ==> r == b
    ensures action.Some? ==> Callbacks(r.disposeEvent) == Callbacks(b.disposeEvent) + [action.value]
    ensures Valid(b.disposeEvent) ==> Valid(r.disposeEvent)
    ensures r.handles == b.handles
  {
    match action
    case None => b
    case Some(a) => b.(disposeEvent := AddListener(b.disposeEvent, a).registry)
  }

  /** The handles the actions detach, in running order. */
  function Detached(actions: seq<CleanupAction>): seq<EventHandle> {
    if |actions| == 0 then [] else actions[0].detaches + Detached(actions[1..])
  }

  /** What running the cleanups did: the hub afterwards, how many actions
      ran (always a prefix, in registration order) and how many exceptions
      were caught and logged. */
  datatype CleanupRun = CleanupRun(hub: Hub, ran: nat, logged: nat)

  /** Runs the cleanup actions in registration order. How the registry's
      `InvokeAll` / `SafeInvoke` treat a throwing callback is not part of
      this model, so both policies are modelled: with `isolate`, each
      exception is caught on its own and the remaining actions still run;
      without it, the first exception abandons the rest and reaches the
      `catch` in `Dispose`. Either way one log entry per caught exception
      and nothing escapes. */
  function RunCleanups(hub: Hub, actions: seq<CleanupAction>, isolate: bool): (r: CleanupRun)
    ensures r.ran <= |actions|
    ensures isolate ==> r.ran == |actions|
    ensures (forall i :: 0 <= i < |actions| ==> !actions[i].throws) ==> r.ran == |actions| && r.logged == 0
    ensures !isolate ==> r.logged <= 1
    ensures !isolate && r.ran < |actions| ==> r.ran > 0 && actions[r.ran - 1].throws && r.logged == 1
    ensures !isolate ==> forall i :: 0 <= i < r.ran - 1 ==> !actions[i].throws
    ensures r.logged <= r.ran
    decreases |actions|
  {
    if |actions| == 0 then CleanupRun(hub, 0, 0)
    else
      var a := actions[0];
      var next := UnlistenAll(hub, a.detaches);
      if a.throws && !isolate then CleanupRun(next, 1, 1)
      else
        var rest := RunCleanups(next, actions[1..], isolate);
        assert forall i :: 0 <= i < |actions[1..]| ==> actions[1..][i] == actions[i + 1];
        CleanupRun(rest.hub, rest.ran + 1, rest.logged + (if a.throws then 1 else 0))
  }

  /** The number of throwing actions. */
  function Throwing(actions: seq<CleanupAction>): nat {
    if |actions| == 0 then 0 else (if actions[0].throws then 1 else 0) + Throwing(actions[1..])
  }

  /** With isolation, every exception is logged once. */
  lemma {:induction false} IsolatedLogsEach(hub: Hub, actions: seq<CleanupAction>)
    ensures RunCleanups(hub, actions, true).logged == Throwing(actions)
    decreases |actions|
  {
    if |actions| > 0 {
      IsolatedLogsEach(UnlistenAll(hub, actions[0].detaches), actions[1..]);
    }
  }

  /** Unlistening two runs of handles in turn is unlistening their
      concatenation. */
  lemma {:induction false} UnlistenAllAppend(hub: Hub, hs: seq<EventHandle>, more: seq<EventHandle>)
    ensures UnlistenAll(UnlistenAll(hub, hs), more) == UnlistenAll(hub, hs + more)
    decreases |hs|
  {
    if |hs| == 0 {
      assert hs + more == more;
    } else {
      assert (hs + more)[0] == hs[0];
      assert (hs + more)[1..] == hs[1..] + more;
      UnlistenAllAppend(UnlistenHandle(hub, hs[0]), hs[1..], more);
    }
  }

  /** `Detached` of one action followed by more. */
  lemma DetachedCons(a: CleanupAction, rest: seq<CleanupAction>)
    ensures Detached([a] + rest) == a.detaches + Detached(rest)
  {
    assert ([a] + rest)[1..] == rest;
  }

  /** An action that does not end the run hands the hub it leaves to the
      rest of the actions, and counts as run. */
  lemma RunCleanupsStep(hub: Hub, actions: seq<CleanupAction>, isolate: bool)
    requires |actions| > 0 && !(actions[0].throws && !isolate)
    ensures var rest := RunCleanups(UnlistenAll(hub, actions[0].detaches), actions[1..], isolate);
      && RunCleanups(hub, actions, isolate).hub == rest.hub
      && RunCleanups(hub, actions, isolate).ran == rest.ran + 1
  {
  }

  /** The handles detached by a non-empty prefix of the actions. */
  lemma DetachedPrefix(actions: seq<CleanupAction>, k: nat)
    requires k < |actions|
    ensures Detached(actions[..k + 1]) == actions[0].detaches + Detached(actions[1..][..k])
  {
    assert actions[..k + 1] == [actions[0]] + actions[1..][..k];
    DetachedCons(actions[0], actions[1..][..k]);
  }

  /** The hub after the cleanups is the hub with every handle detached by
      the actions that ran unlistened: running them one by one is the same
      as detaching their handles in one sweep. */
  lemma {:induction false} RunCleanupsDetaches(hub: Hub, actions: seq<CleanupAction>, isolate: bool)
    ensures var r := RunCleanups(hub, actions, isolate);
      r.hub == UnlistenAll(hub, Detached(actions[..r.ran]))
    decreases |actions|
  {
    if |actions| > 0 {
      var a := actions[0];
      var next := UnlistenAll(hub, a.detaches);
      if a.throws && !isolate {
        assert actions[..1] == [a] + [];
        DetachedCons(a, []);
        assert a.detaches + [] == a.detaches;
      } else {
        var tail := actions[1..];
        var k := RunCleanups(next, tail, isolate).ran;
        RunCleanupsStep(hub, actions, isolate);
        RunCleanupsDetaches(next, tail, isolate);
        DetachedPrefix(actions, k);
        UnlistenAllAppend(hub, a.detaches, Detached(tail[..k]));
      }
    }
  }

  /** What `Dispose` did: the hub and the binder afterwards, the number of
      cleanup actions that ran, and the number of exceptions logged. */
  datatype Disposal = Disposal(hub: Hub, binder: Binder, ran: nat, logged: nat)

  /** `Dispose()`: unlisten every recorded handle in recording order and
      forget them; then run the cleanups, catching and logging what they
      throw; then remove every cleanup action. The binder stays usable.
      Nothing but unlistening touches the registries: the hub afterwards is
      one sweep over the recorded handles and those the cleanups that ran
      detached. */
  function Dispose(hub: Hub, b: Binder, isolate: bool): (d: Disposal)
    ensures d.binder.handles == [] && ListenerCount(d.binder.disposeEvent) == 0
    ensures Valid(b.disposeEvent) ==> Valid(d.binder.disposeEvent)
    ensures ValidHub(hub) ==> ValidHub(d.hub)
    ensures d.hub.Keys == hub.Keys
    ensures forall j :: 0 <= j < |b.handles| ==> !Live(d.hub, b.handles[j])
    ensures d.ran <= ListenerCount(b.disposeEvent) && d.logged <= d.ran
    ensures d.hub == UnlistenAll(hub, b.handles + Detached(Callbacks(b.disposeEvent)[..d.ran]))
    ensures isolate ==> d.ran == ListenerCount(b.disposeEvent)
    ensures (forall i :: 0 <= i < ListenerCount(b.disposeEvent) ==> !Callbacks(b.disposeEvent)[i].throws) ==>
      d.ran == ListenerCount(b.disposeEvent) && d.logged == 0
    ensures !isolate ==> d.logged <= 1
  {
    var unlistened := UnlistenAll(hub, b.handles);
    var actions := Callbacks(b.disposeEvent);
    var run := RunCleanups(unlistened, actions, isolate);
    RunCleanupsDetaches(unlistened, actions, isolate);
    UnlistenAllAppend(hub, b.handles, Detached(actions[..run.ran]));
    assert forall j :: 0 <= j < |b.handles| ==> (b.handles + Detached(actions[..run.ran]))[j] == b.handles[j];
    Disposal(run.hub, Binder([], RemoveAllListeners(b.disposeEvent)), run.ran, run.logged)
  }

  /** Exactly the registrations that were live, were not recorded by this
      binder, and were not detached by a cleanup that ran survive `Dispose`. */
  lemma DisposeLive(hub: Hub, b: Binder, isolate: bool, h: EventHandle)
    ensures var d := Dispose(hub, b, isolate);
      Live(d.hub, h) <==> Live(hub, h) && h !in b.handles && h !in Detached(Callbacks(b.disposeEvent)[..d.ran])
  {
    var unlistened := UnlistenAll(hub, b.handles);
    var actions := Callbacks(b.disposeEvent);
    var run := RunCleanups(unlistened, actions, isolate);
    RunCleanupsDetaches(unlistened, actions, isolate);
    UnlistenAllAppend(hub, b.handles, Detached(actions[..run.ran]));
    UnlistenAllLive(hub, b.handles + Detached(actions[..run.ran]), h);
  }

  /** A handle an action detaches is among the handles all the actions
      detach. */
  lemma {:induction false} DetachedContains(actions: seq<CleanupAction>, k: nat, h: EventHandle)
    requires k < |actions| && h in actions[k].detaches
    ensures h in Detached(actions)
    decreases |actions|
  {
    if k > 0 {
      DetachedContains(actions[1..], k - 1, h);
    }
  }

  /** A subscription that a custom cleanup action removes stops firing after
      `Dispose`, provided the action gets to run: always with isolation, and
      otherwise when no action registered before it throws. */
  lemma CleanupStopsSubscription(hub: Hub, b: Binder, isolate: bool, k: nat, h: EventHandle)
    requires k < |Callbacks(b.disposeEvent)| && h in Callbacks(b.disposeEvent)[k].detaches
    requires isolate || forall i :: 0 <= i < k ==> !Callbacks(b.disposeEvent)[i].throws
    ensures !Live(Dispose(hub, b, isolate).hub, h)
  {
    var actions := Callbacks(b.disposeEvent);
    var run := RunCleanups(UnlistenAll(hub, b.handles), actions, isolate);
    assert k < run.ran;
    assert actions[..run.ran][k] == actions[k];
    DetachedContains(actions[..run.ran], k, h);
    DisposeLive(hub, b, isolate, h);
  }

  /** A second `Dispose` changes nothing: no handle and no action is left. */
  lemma DisposeTwice(hub: Hub, b: Binder, isolate: bool, isolate2: bool)
    ensures var d := Dispose(hub, b, isolate);
      var d2 := Dispose(d.hub, d.binder, isolate2);
      d2.hub == d.hub && d2.binder == d.binder && d2.ran == 0 && d2.logged == 0
  {
  }

  /** When every registration on an event was made through this binder, the
      event is silent after `Dispose`: no listener is left, and an `Invoke`
      calls nobody. */
  /** The registrations of each event that survive `Dispose` keep their
      ids, their callbacks and their order: they are the registrations that
      were there, minus the recorded and the detached ones. */
  lemma DisposeKeepsOrder(hub: Hub, b: Binder, isolate: bool, e: EventId)
    ensures var d := Dispose(hub, b, isolate);
      RegistryOf(d.hub, e).entries
        == Kept(RegistryOf(hub, e).entries, e, b.handles + Detached(Callbacks(b.disposeEvent)[..d.ran]))
  {
    var d := Dispose(hub, b, isolate);
    UnlistenAllKeepsOrder(hub, b.handles + Detached(Callbacks(b.disposeEvent)[..d.ran]), e);
  }

  /** An outside subscriber's calls survive `Dispose` unchanged when this
      binder recorded nothing on its event and no cleanup that ran detached
      anything there. */
  lemma DisposeSparesUntouchedEvent<T>(hub: Hub, b: Binder, isolate: bool, e: EventId, payload: Arg<T>)
    requires forall j :: 0 <= j < |b.handles| ==> b.handles[j].event != e
    requires forall i, j :: 0 <= i < |Callbacks(b.disposeEvent)| && 0 <= j < |Callbacks(b.disposeEvent)[i].detaches| ==>
      Callbacks(b.disposeEvent)[i].detaches[j].event != e
    ensures Invoke(Dispose(hub, b, isolate).hub, e, payload) == Invoke(hub, e, payload)
  {
    var d := Dispose(hub, b, isolate);
    var hs := b.handles + Detached(Callbacks(b.disposeEvent)[..d.ran]);
    DetachedOtherEvent(Callbacks(b.disposeEvent)[..d.ran], e);
    KeptUntouched(RegistryOf(hub, e).entries, e, hs);
    DisposeKeepsOrder(hub, b, isolate, e);
  }

  /** Cleanups that detach nothing of `e` yield no handle of `e`. */
  lemma {:induction false} DetachedOtherEvent(actions: seq<CleanupAction>, e: EventId)
    requires forall i, j :: 0 <= i < |actions| && 0 <= j < |actions[i].detaches| ==> actions[i].detaches[j].event != e
    ensures forall j :: 0 <= j < |Detached(actions)| ==> Detached(actions)[j].event != e
    decreases |actions|
  {
    if |actions| > 0 {
      DetachedOtherEvent(actions[1..], e);
      forall j | 0 <= j < |Detached(actions)| ensures Detached(actions)[j].event != e {
        if j >= |actions[0].detaches| {
          assert Detached(actions)[j] == Detached(actions[1..])[j - |actions[0].detaches|];
        }
      }
    }
  }

  lemma DisposeSilences<T>(hub: Hub, b: Binder, isolate: bool, e: EventId, payload: Arg<T>)
    requires forall i :: 0 <= i < |RegistryOf(hub, e).entries| ==> EventHandle(e, RegistryOf(hub, e).entries[i].id) in b.handles
    ensures ListenerCount(RegistryOf(Dispose(hub, b, isolate).hub, e)) == 0
    ensures Invoke(Dispose(hub, b, isolate).hub, e, payload) == []
  {
    var d := Dispose(hub, b, isolate);
    var after := RegistryOf(d.hub, e);
    if |after.entries| > 0 {
      var x := after.entries[0];
      DisposeLive(hub, b, isolate, EventHandle(e, x.id));
      assert false;
    }
  }
}

=== FILE: easy_delegate.dfy ===
/** The listener registry behind every event of the library (`EasyDelegate`
    in one copy of the runtime, `Event` in the other): an insertion-ordered
    map from freshly allocated handle ids to callbacks.

    Only the surface the rest of the runtime uses is modelled: `AddListener`
    returning a fresh handle, `Unlisten` by handle, `ListenerCount`,
    `RemoveAllListeners`, and the registration order in which `Invoke`
    visits the callbacks. */
module EasyDelegate {

  type HandleId = nat

  /** One registration: the handle id it was given and its callback. */
  datatype Entry<C> = Entry(id: HandleId, callback: C)

  /** `nextId` is the id the next `AddListener` hands out. */
  datatype Registry<C> = Registry(nextId: HandleId, entries: seq<Entry<C>>)

  /** Ids are below `nextId` and strictly increasing in registration order,
      so every handle id names at most one registration. */
  ghost predicate Valid<C>(r: Registry<C>) {
    && (forall i :: 0 <= i < |r.entries| ==> r.entries[i].id < r.nextId)
    && Sorted(r.entries)
  }

  ghost predicate Sorted<C>(es: seq<Entry<C>>) {
    forall i, j :: 0 <= i < j < |es| ==> es[i].id < es[j].id
  }

  function Empty<C>(): (r: Registry<C>)
    ensures Valid(r) && ListenerCount(r) == 0
  {
    Registry(0, [])
  }

  predicate Contains<C>(r: Registry<C>, h: HandleId) {
    exists i :: 0 <= i < |r.entries| && r.entries[i].id == h
  }

  function ListenerCount<C>(r: Registry<C>): nat {
    |r.entries|
  }

  /** The callbacks in the order `Invoke` calls them: registration order. */
  function Callbacks<C>(r: Registry<C>): (cs: seq<C>)
    ensures |cs| == |r.entries|
    ensures forall i :: 0 <= i < |cs| ==> cs[i] == r.entries[i].callback
  {
    seq(|r.entries|, i requires 0 <= i < |r.entries| => r.entries[i].callback)
  }

  datatype Added<C> = Added(registry: Registry<C>, handle: HandleId)

  /** Registers `c` at the end and returns its fresh handle. */
  function AddListener<C>(r: Registry<C>, c: C): (a: Added<C>)
    ensures Valid(r) ==> Valid(a.registry)
    ensures Valid(r) ==> !Contains(r, a.handle)
    ensures Contains(a.registry, a.handle)
    ensures Callbacks(a.registry) == Callbacks(r) + [c]
    ensures ListenerCount(a.registry) == ListenerCount(r) + 1
    ensures a.registry.entries[..|r.entries|] == r.entries
    ensures a.registry.entries == r.entries + [Entry(a.handle, c)]
  {
    var reg := Registry(r.nextId + 1, r.entries + [Entry(r.nextId, c)]);
    assert reg.entries[|r.entries|].id == r.nextId;
    Added(reg, r.nextId)
  }

  /** After `AddListener` an id is registered exactly when it was before or
      is the handle just handed out. */
  lemma AddListenerContains<C>(r: Registry<C>, c: C, h: HandleId)
    ensures Contains(AddListener(r, c).registry, h) <==> Contains(r, h) || h == AddListener(r, c).handle
  {
    var es := AddListener(r, c).registry.entries;
    assert es == r.entries + [Entry(r.nextId, c)];
    if Contains(AddListener(r, c).registry, h) && h != r.nextId {
      var i :| 0 <= i < |es| && es[i].id == h;
      assert i < |r.entries| && r.entries[i].id == h;
    }
    if Contains(r, h) {
      var i :| 0 <= i < |r.entries| && r.entries[i].id == h;
      assert es[i].id == h;
    }
  }

  /** The registrations of `es` other than the one(s) with id `h`, in order. */
  function Remove<C>(es: seq<Entry<C>>, h: HandleId): (res: seq<Entry<C>>)
    ensures forall i :: 0 <= i < |res| ==> res[i] in es && res[i].id != h
    ensures forall i :: 0 <= i < |es| && es[i].id != h ==> es[i] in res
    ensures |res| <= |es|
    ensures (forall i :: 0 <= i < |es| ==> es[i].id != h) ==> res == es
    ensures Sorted(es) ==> Sorted(res)
    decreases |es|
  {
    if |es| == 0 then []
    else
      var tail := es[1..];
      var rest := Remove(tail, h);
      assert es == [es[0]] + tail;
      if es[0].id == h then rest
      else
        RemoveKeepsOrder(es[0], tail, rest);
        [es[0]] + rest
  }

  /** Prepending an entry with a smaller id than every entry of `tail` keeps
      a sub-list of `tail` sorted. */
  lemma RemoveKeepsOrder<C>(first: Entry<C>, tail: seq<Entry<C>>, rest: seq<Entry<C>>)
    requires forall i :: 0 <= i < |rest| ==> rest[i] in tail
    requires Sorted(tail) ==> Sorted(rest)
    ensures Sorted([first] + tail) ==> Sorted([first] + rest)
  {
    if Sorted([first] + tail) {
      assert Sorted(tail) by {
        forall i, j | 0 <= i < j < |tail| ensures tail[i].id < tail[j].id {
          assert ([first] + tail)[i + 1] == tail[i];
          assert ([first] + tail)[j + 1] == tail[j];
        }
      }
      forall k | 0 <= k < |rest|
        ensures first.id < rest[k].id
      {
        var m :| 0 <= m < |tail| && tail[m] == rest[k];
        assert ([first] + tail)[0] == first;
        assert ([first] + tail)[m + 1] == tail[m];
      }
      var res := [first] + rest;
      forall i, j | 0 <= i < j < |res| ensures res[i].id < res[j].id {
        if i == 0 {
          assert res[j] == rest[j - 1];
        } else {
          assert res[i] == rest[i - 1] && res[j] == rest[j - 1];
        }
      }
    }
  }

  /** `handle.Unlisten()`: drops the registration with id `h`; an unknown or
      already removed handle leaves the registry as it is. */
  function Unlisten<C>(r: Registry<C>, h: HandleId): (res: Registry<C>)
    ensures Valid(r) ==> Valid(res)
    ensures !Contains(res, h)
    ensures forall i :: 0 <= i < |res.entries| ==> res.entries[i] in r.entries && res.entries[i].id != h
    ensures forall i :: 0 <= i < |r.entries| && r.entries[i].id != h ==> r.entries[i] in res.entries
    ensures !Contains(r, h) ==> res == r
    ensures res.nextId == r.nextId
  {
    var res := Registry(r.nextId, Remove(r.entries, h));
    assert Valid(r) ==> Valid(res) by {
      if Valid(r) {
        forall i | 0 <= i < |res.entries|
          ensures res.entries[i].id < res.nextId
        {
          assert res.entries[i] in r.entries;
        }
      }
    }
    res
  }

  /** Empties the registry; handle ids already handed out are not reused. */
  function RemoveAllListeners<C>(r: Registry<C>): (res: Registry<C>)
    ensures ListenerCount(res) == 0 && Callbacks(res) == []
    ensures Valid(r) ==> Valid(res)
    ensures forall h :: !Contains(res, h)
  {
    Registry(r.nextId, [])
  }

  /** Unlistening a handle that is registered removes exactly one listener. */
  lemma UnlistenCount<C>(r: Registry<C>, h: HandleId)
    requires Valid(r) && Contains(r, h)
    ensures ListenerCount(Unlisten(r, h)) == ListenerCount(r) - 1
  {
    RemoveOnce(r.entries, h);
  }

  lemma {:induction false} RemoveOnce<C>(es: seq<Entry<C>>, h: HandleId)
    requires Sorted(es)
    requires exists i :: 0 <= i < |es| && es[i].id == h
    ensures |Remove(es, h)| == |es| - 1
    decreases |es|
  {
    if es[0].id == h {
      assert forall i :: 0 <= i < |es[1..]| ==> es[1..][i].id != h by {
        forall i | 0 <= i < |es[1..]|
          ensures es[1..][i].id != h
        {
          assert es[1..][i] == es[i + 1];
        }
      }
    } else {
      var i :| 0 <= i < |es| && es[i].id == h;
      assert es[1..][i - 1].id == h;
      RemoveOnce(es[1..], h);
    }
  }

  /** Unlistening the handle just returned by `AddListener` gives back the
      original registrations, in the original order. */
  lemma AddThenUnlisten<C>(r: Registry<C>, c: C)
    requires Valid(r)
    ensures Unlisten(AddListener(r, c).registry, AddListener(r, c).handle).entries == r.entries
  {
    var a := AddListener(r, c);
    var es := a.registry.entries;
    RemoveLast(r.entries, Entry(r.nextId, c));
  }

  lemma {:induction false} RemoveLast<C>(es: seq<Entry<C>>, last: Entry<C>)
    requires forall i :: 0 <= i < |es| ==> es[i].id != last.id
    ensures Remove(es + [last], last.id) == es
    decreases |es|
  {
    if |es| == 0 {
      assert es + [last] == [last];
    } else {
      assert (es + [last])[1..] == es[1..] + [last];
      RemoveLast(es[1..], last);
      assert [es[0]] + es[1..] == es;
    }
  }
}

=== FILE: event_args.dfy ===
/** The payloads the observables emit: the `[Flags] EventType` byte enum of
    the collection events and the argument structs handed to handlers. */
module EventArgs {
  import opened Wrappers

  /** Kind of a collection change. */
  datatype EventType = Add | Remove | Update | Clear

  /** The `byte` value of each member: `Add = 1`, `Remove = 1 << 1`,
      `Update = 1 << 2`, `Clear = 1 << 3`. Each is one set bit. */
  function Flag(t: EventType): (b: bv8)
    ensures b != 0 && b & (b - 1) == 0
    ensures b as int < 16
  {
    match t
    case Add => 1
    case Remove => 1 << 1
    case Update => 1 << 2
    case Clear => 1 << 3
  }

  /** The member whose value is exactly `b`, if any. */
  function FromFlag(b: bv8): (t: Option<EventType>)
    ensures t.Some? <==> b in {1, 2, 4, 8}
  {
    if b == 1 then Some(Add)
    else if b == 2 then Some(Remove)
    else if b == 4 then Some(Update)
    else if b == 8 then Some(Clear)
    else None
  }

  /** Flags decode back to their members, and only member values decode. */
  lemma FlagRoundTrip(t: EventType, b: bv8)
    ensures FromFlag(Flag(t)) == Some(t)
    ensures FromFlag(b).Some? ==> Flag(FromFlag(b).value) == b
  {
  }

  /** Distinct members share no bit. */
  lemma FlagsDisjoint(s: EventType, t: EventType)
    ensures s != t <==> Flag(s) & Flag(t) == 0
  {
  }

  /** All four members together are 15, well inside the `byte` range. */
  lemma FlagsUnion()
    ensures Flag(Add) | Flag(Remove) | Flag(Update) | Flag(Clear) == 15
  {
  }

  /** The values the enum declares, member by member. */
  lemma FlagValues()
    ensures Flag(Add) == 1 && Flag(Remove) == 2 && Flag(Update) == 4 && Flag(Clear) == 8
    ensures FromFlag(1) == Some(Add) && FromFlag(2) == Some(Remove)
    ensures FromFlag(4) == Some(Update) && FromFlag(8) == Some(Clear)
  {
  }

  /** `PropertyChangedEventArg<T>`: the value before and after a change. */
  datatype PropertyChangedEventArg<T> = PropertyChangedEventArg(oldValue: T, nextValue: T)

  /** `ListChangedEventArg`: the affected index (-1 for `Clear`) and kind. */
  datatype ListChangedEventArg = ListChangedEventArg(index: int, eventType: EventType)

  /** `SetChangedEventArg`: only the kind; no element is carried. */
  datatype SetChangedEventArg = SetChangedEventArg(eventType: EventType)

  /** `SetChangedEventArg<T>`: the kind and the element added or removed.
      The `Clear` event carries `default(T)`, written `None` here. */
  datatype TypedSetChangedEventArg<T> = TypedSetChangedEventArg(element: Option<T>, eventType: EventType)

  /** `DictionaryChangedEventArg<TKey>`: the affected key and kind. The
      `Clear` event carries `default(TKey)`, written `None` here. */
  datatype DictionaryChangedEventArg<K> = DictionaryChangedEventArg(key: Option<K>, eventType: EventType)
}

=== FILE: listeners.dfy ===
/** The events of all observables at once, the listeners registered on them,
    and the synchronous fan-out of one payload to those listeners.

    Every observable (a `BindableProperty`, a `BindableObject`, a bindable
    collection, a plain `EasyEvent`) owns one listener registry; the hub maps
    the observable's event id to that registry. A handle the `Binder` records
    names the event and the id the registry handed out, which is all that
    `handle.Unlisten()` needs. */
module Listeners {
  import opened Wrappers
  import opened EasyDelegate
  import opened EventArgs

  type EventId = nat

  /** An opaque user delegate. */
  type HandlerId = nat

  /** `EventHandle` / `IEventHandle`: one registration on one event. */
  datatype EventHandle = EventHandle(event: EventId, id: HandleId)

  /** Which `BindPropertyChange` overload wrapped the user's handler:
      `Action<T, T>`, `Action<T>` or `Action`. */
  datatype Projection = OldAndNext | NextOnly | NoArgs

  /** What is actually stored in a registry.
      - `Direct`: the user's delegate itself (`None` when it is null);
      - `Projecting`: the lambda `BindPropertyChange` wraps around the user's
        delegate, which unpacks the `PropertyChangedEventArg<T>`;
      - `NameFilter`: the lambda of the name-filtered `BindObjectChange`,
        calling the parameterless handler only for the given name. */
  datatype Listener =
    | Direct(handler: Option<HandlerId>)
    | Projecting(projection: Projection, inner: Option<HandlerId>)
    | NameFilter(name: string, target: HandlerId)

  /** The user delegate a listener ends up calling. */
  function HandlerOf(l: Listener): Option<HandlerId> {
    match l
    case Direct(h) => h
    case Projecting(_, h) => h
    case NameFilter(_, h) => Some(h)
  }

  /** Event payloads, and the argument lists user delegates receive. */
  datatype Arg<T> =
    | NoArg
    | One(value: T)
    | Two(first: T, second: T)
    | Changed(change: PropertyChangedEventArg<T>)
    | Name(name: string)
    | ListChanged(listArg: ListChangedEventArg)
    | SetChanged(setArg: SetChangedEventArg)
    | TypedSetChanged(typedSetArg: TypedSetChangedEventArg<T>)
    | DictionaryChanged(dictArg: DictionaryChangedEventArg<T>)

  /** One invocation of a user delegate. `handler == None` is a call through
      a null delegate, which throws a `NullReferenceException` in C#. */
  datatype Call<T> = Call(handler: Option<HandlerId>, arg: Arg<T>)

  /** The argument list each `BindPropertyChange` overload passes on. */
  function Project<T>(p: Projection, e: PropertyChangedEventArg<T>): (a: Arg<T>)
    ensures p == OldAndNext ==> a == Two(e.oldValue, e.nextValue)
    ensures p == NextOnly ==> a == One(e.nextValue)
    ensures p == NoArgs ==> a == NoArg
  {
    match p
    case OldAndNext => Two(e.oldValue, e.nextValue)
    case NextOnly => One(e.nextValue)
    case NoArgs => NoArg
  }

  /** The user call one listener makes for one payload, if any. Payload kinds
      a listener cannot receive (the binding functions never pair them) and
      names other than the filtered one produce no call. */
  function Deliver<T>(l: Listener, payload: Arg<T>): (c: Option<Call<T>>)
    ensures c.Some? ==> c.value.handler == HandlerOf(l)
    ensures l.Direct? ==> c == Some(Call(l.handler, payload))
    ensures l.NameFilter? ==> (c.Some? <==> payload.Name? && payload.name == l.name)
    ensures l.NameFilter? && c.Some? ==> c.value.arg == NoArg
    ensures l.Projecting? ==> (c.Some? <==> payload.Changed?)
  {
    match l
    case Direct(h) => Some(Call(h, payload))
    case Projecting(p, h) =>
      if payload.Changed? then Some(Call(h, Project(p, payload.change))) else None
    case NameFilter(n, h) =>
      if payload.Name? && payload.name == n then Some(Call(Some(h), NoArg)) else None
  }

  /** The user delegates the listeners `ls` may call. */
  function HandlersOf(ls: seq<Listener>): set<Option<HandlerId>> {
    set i | 0 <= i < |ls| :: HandlerOf(ls[i])
  }

  /** `Invoke`: every listener, in registration order, gets the payload. */
  function FanOut<T>(ls: seq<Listener>, payload: Arg<T>): (calls: seq<Call<T>>)
    ensures |calls| <= |ls|
    ensures forall i :: 0 <= i < |calls| ==> calls[i].handler in HandlersOf(ls)
    ensures (forall i :: 0 <= i < |ls| ==> Deliver(ls[i], payload).Some?) ==> |calls| == |ls|
    ensures (forall i :: 0 <= i < |ls| ==> Deliver(ls[i], payload).None?) ==> calls == []
    decreases |ls|
  {
    if |ls| == 0 then []
    else
      var rest := FanOut(ls[1..], payload);
      assert forall i :: 0 <= i < |ls[1..]| ==> ls[1..][i] == ls[i + 1];
      assert HandlersOf(ls[1..]) <= HandlersOf(ls) by {
        forall x | x in HandlersOf(ls[1..]) ensures x in HandlersOf(ls) {
          var i :| 0 <= i < |ls[1..]| && HandlerOf(ls[1..][i]) == x;
          assert HandlerOf(ls[i + 1]) == x;
        }
      }
      assert HandlerOf(ls[0]) in HandlersOf(ls);
      match Deliver(ls[0], payload)
      case Some(c) => [c] + rest
      case None => rest
  }

  /** Fan-out distributes over concatenation of listener lists. */
  lemma {:induction false} FanOutAppend<T>(ls: seq<Listener>, more: seq<Listener>, payload: Arg<T>)
    ensures FanOut(ls + more, payload) == FanOut(ls, payload) + FanOut(more, payload)
    decreases |ls|
  {
    if |ls| == 0 {
      assert ls + more == more;
    } else {
      assert (ls + more)[1..] == ls[1..] + more;
      assert (ls + more)[0] == ls[0];
      FanOutAppend(ls[1..], more, payload);
    }
  }

  /** Plain delegates are called in registration order, each once, with the
      payload as fired. */
  lemma {:induction false} FanOutAllDirect<T>(ls: seq<Listener>, payload: Arg<T>)
    requires forall i :: 0 <= i < |ls| ==> ls[i].Direct?
    ensures FanOut(ls, payload) == seq(|ls|, i requires 0 <= i < |ls| => Call(ls[i].handler, payload))
    decreases |ls|
  {
    if |ls| > 0 {
      FanOutAllDirect(ls[1..], payload);
    }
  }

  /** The registries of every observable, by event id. */
  type Hub = map<EventId, Registry<Listener>>

  /** An event nobody has subscribed to yet has an empty registry. */
  function RegistryOf(hub: Hub, e: EventId): Registry<Listener> {
    if e in hub then hub[e] else Empty()
  }

  ghost predicate ValidHub(hub: Hub) {
    forall e :: e in hub ==> Valid(hub[e])
  }

  /** The handle still names a registration. */
  predicate Live(hub: Hub, h: EventHandle) {
    Contains(RegistryOf(hub, h.event), h.id)
  }

  /** `evt.Invoke(payload)`: the calls made, in registration order. */
  function Invoke<T>(hub: Hub, e: EventId, payload: Arg<T>): seq<Call<T>> {
    FanOut(Callbacks(RegistryOf(hub, e)), payload)
  }

  /** One more payload costs one more round of the registry. */
  lemma MultiplyStep(n: nat, k: nat)
    requires n > 0
    ensures n * k == k + (n - 1) * k
  {
  }

  /** Several payloads fired one after the other on the same event: each
      runs the whole registry before the next starts. */
  function Announce<T>(hub: Hub, e: EventId, payloads: seq<Arg<T>>): (calls: seq<Call<T>>)
    ensures |payloads| == 0 ==> calls == []
    ensures |payloads| == 1 ==> calls == Invoke(hub, e, payloads[0])
    ensures |calls| <= |payloads| * ListenerCount(RegistryOf(hub, e))
    decreases |payloads|
  {
    if |payloads| == 0 then []
    else
      var rest := Announce(hub, e, payloads[1..]);
      MultiplyStep(|payloads|, ListenerCount(RegistryOf(hub, e)));
      Invoke(hub, e, payloads[0]) + rest
  }

  /** A listener that takes every payload (a plain delegate) is called once
      per payload: `k` payloads reach `k` times each direct listener. */
  lemma {:induction false} AnnounceToDirect<T>(hub: Hub, e: EventId, payloads: seq<Arg<T>>)
    requires forall i :: 0 <= i < |Callbacks(RegistryOf(hub, e))| ==> Callbacks(RegistryOf(hub, e))[i].Direct?
    ensures |Announce(hub, e, payloads)| == |payloads| * ListenerCount(RegistryOf(hub, e))
    decreases |payloads|
  {
    if |payloads| > 0 {
      AnnounceToDirect(hub, e, payloads[1..]);
      MultiplyStep(|payloads|, ListenerCount(RegistryOf(hub, e)));
    }
  }

  datatype Subscription = Subscription(hub: Hub, handle: EventHandle)

  /** `evt.AddListener(l)`: appends `l` to the registry of `e`. */
  function Subscribe(hub: Hub, e: EventId, l: Listener): (s: Subscription)
    ensures s.handle.event == e && Live(s.hub, s.handle)
    ensures ValidHub(hub) ==> ValidHub(s.hub) && !Live(hub, s.handle)
    ensures RegistryOf(s.hub, e).entries == RegistryOf(hub, e).entries + [Entry(s.handle.id, l)]
    ensures Callbacks(RegistryOf(s.hub, e)) == Callbacks(RegistryOf(hub, e)) + [l]
    ensures ListenerCount(RegistryOf(s.hub, e)) == ListenerCount(RegistryOf(hub, e)) + 1
    ensures forall f :: f != e ==> RegistryOf(s.hub, f) == RegistryOf(hub, f)
    ensures s.hub.Keys == hub.Keys + {e}
  {
    var a := AddListener(RegistryOf(hub, e), l);
    Replace(hub, e, a.registry);
    Subscription(hub[e := a.registry], EventHandle(e, a.handle))
  }

  /** Replacing the registry of `e` changes that registry only, and keeps a
      valid hub valid when the new registry is valid. */
  lemma Replace(hub: Hub, e: EventId, reg: Registry<Listener>)
    ensures RegistryOf(hub[e := reg], e) == reg
    ensures forall f :: f != e ==> RegistryOf(hub[e := reg], f) == RegistryOf(hub, f)
    ensures hub[e := reg].Keys == hub.Keys + {e}
    ensures ValidHub(hub) ==> Valid(RegistryOf(hub, e))
    ensures ValidHub(hub) && Valid(reg) ==> ValidHub(hub[e := reg])
  {
    if ValidHub(hub) && Valid(reg) {
      var hub' := hub[e := reg];
      forall f | f in hub' ensures Valid(hub'[f]) {
        if f != e { assert hub'[f] == hub[f]; }
      }
    }
  }

  /** `handle.Unlisten()`. */
  function UnlistenHandle(hub: Hub, h: EventHandle): (res: Hub)
    ensures res.Keys == hub.Keys
    ensures ValidHub(hub) ==> ValidHub(res)
    ensures !Live(res, h)
    ensures forall f :: f != h.event ==> RegistryOf(res, f) == RegistryOf(hub, f)
    ensures RegistryOf(res, h.event) == Unlisten(RegistryOf(hub, h.event), h.id)
  {
    if h.event in hub then hub[h.event := Unlisten(hub[h.event], h.id)] else hub
  }

  /** The registrations of `e` that survive unlistening all of `hs`. */
  ghost predicate Survivors(hub: Hub, res: Hub, hs: seq<EventHandle>) {
    && (forall e, i :: 0 <= i < |RegistryOf(res, e).entries| ==>
          RegistryOf(res, e).entries[i] in RegistryOf(hub, e).entries
          && EventHandle(e, RegistryOf(res, e).entries[i].id) !in hs)
    && (forall e, i :: 0 <= i < |RegistryOf(hub, e).entries| && EventHandle(e, RegistryOf(hub, e).entries[i].id) !in hs ==>
          RegistryOf(hub, e).entries[i] in RegistryOf(res, e).entries)
  }

  /** Unlistens every handle of `hs`, in order. Exactly the registrations
      whose handle is not among `hs` remain. */
  function UnlistenAll(hub: Hub, hs: seq<EventHandle>): (res: Hub)
    ensures res.Keys == hub.Keys
    ensures ValidHub(hub) ==> ValidHub(res)
    ensures Survivors(hub, res, hs)
    ensures forall j :: 0 <= j < |hs| ==> !Live(res, hs[j])
    decreases |hs|
  {
    if |hs| == 0 then hub
    else
      var mid := UnlistenHandle(hub, hs[0]);
      var res := UnlistenAll(mid, hs[1..]);
      SurvivorsStep(hub, mid, res, hs);
      res
  }

  lemma SurvivorsStep(hub: Hub, mid: Hub, res: Hub, hs: seq<EventHandle>)
    requires |hs| > 0 && mid == UnlistenHandle(hub, hs[0])
    requires Survivors(mid, res, hs[1..])
    requires forall j :: 0 <= j < |hs[1..]| ==> !Live(res, hs[1..][j])
    ensures Survivors(hub, res, hs)
    ensures forall j :: 0 <= j < |hs| ==> !Live(res, hs[j])
  {
    assert hs == [hs[0]] + hs[1..];
    forall e, i | 0 <= i < |RegistryOf(res, e).entries|
      ensures RegistryOf(res, e).entries[i] in RegistryOf(hub, e).entries
      ensures EventHandle(e, RegistryOf(res, e).entries[i].id) !in hs
    {
      var x := RegistryOf(res, e).entries[i];
      assert x in RegistryOf(mid, e).entries;
      var k :| 0 <= k < |RegistryOf(mid, e).entries| && RegistryOf(mid, e).entries[k] == x;
      if e == hs[0].event {
        assert x in RegistryOf(hub, e).entries && x.id != hs[0].id;
      }
    }
    forall e, i | 0 <= i < |RegistryOf(hub, e).entries| && EventHandle(e, RegistryOf(hub, e).entries[i].id) !in hs
      ensures RegistryOf(hub, e).entries[i] in RegistryOf(res, e).entries
    {
      var x := RegistryOf(hub, e).entries[i];
      assert x in RegistryOf(mid, e).entries;
      var k :| 0 <= k < |RegistryOf(mid, e).entries| && RegistryOf(mid, e).entries[k] == x;
    }
    forall j | 0 <= j < |hs| ensures !Live(res, hs[j]) {
      if j > 0 {
        assert hs[j] == hs[1..][j - 1];
      }
    }
  }

  /** The registrations of `es` (the registry of `e`) whose handle is not
      among `hs`, in registration order. */
  function Kept(es: seq<Entry<Listener>>, e: EventId, hs: seq<EventHandle>): (res: seq<Entry<Listener>>)
    ensures |res| <= |es|
    decreases |es|
  {
    if |es| == 0 then []
    else (if EventHandle(e, es[0].id) in hs then [] else [es[0]]) + Kept(es[1..], e, hs)
  }

  /** With nothing to unlisten, every registration is kept. */
  lemma {:induction false} KeptNothing(es: seq<Entry<Listener>>, e: EventId)
    ensures Kept(es, e, []) == es
    decreases |es|
  {
    if |es| > 0 {
      KeptNothing(es[1..], e);
      assert [es[0]] + es[1..] == es;
    }
  }

  /** A handle of another event does not change which registrations of `e`
      are kept. */
  lemma {:induction false} KeptOtherEvent(es: seq<Entry<Listener>>, e: EventId, hs: seq<EventHandle>)
    requires |hs| > 0 && hs[0].event != e
    ensures Kept(es, e, hs[1..]) == Kept(es, e, hs)
    decreases |es|
  {
    if |es| > 0 {
      assert hs == [hs[0]] + hs[1..];
      assert EventHandle(e, es[0].id) in hs <==> EventHandle(e, es[0].id) in hs[1..];
      KeptOtherEvent(es[1..], e, hs);
    }
  }

  /** Handles of other events keep every registration of `e`. */
  lemma {:induction false} KeptUntouched(es: seq<Entry<Listener>>, e: EventId, hs: seq<EventHandle>)
    requires forall j :: 0 <= j < |hs| ==> hs[j].event != e
    ensures Kept(es, e, hs) == es
    decreases |es|
  {
    if |es| > 0 {
      KeptUntouched(es[1..], e, hs);
      assert EventHandle(e, es[0].id) !in hs;
      assert [es[0]] + es[1..] == es;
    }
  }

  /** Removing the first handle's registration from the registry, and then
      keeping what the others leave, is keeping what all of them leave. */
  lemma {:induction false} KeptRemove(es: seq<Entry<Listener>>, e: EventId, hs: seq<EventHandle>)
    requires |hs| > 0 && hs[0].event == e
    ensures Kept(EasyDelegate.Remove(es, hs[0].id), e, hs[1..]) == Kept(es, e, hs)
    decreases |es|
  {
    if |es| > 0 {
      assert hs == [hs[0]] + hs[1..];
      KeptRemove(es[1..], e, hs);
      if es[0].id != hs[0].id {
        var r := EasyDelegate.Remove(es, hs[0].id);
        assert r == [es[0]] + EasyDelegate.Remove(es[1..], hs[0].id);
        assert r[0] == es[0] && r[1..] == EasyDelegate.Remove(es[1..], hs[0].id);
        assert EventHandle(e, es[0].id) in hs <==> EventHandle(e, es[0].id) in hs[1..];
      }
    }
  }

  /** `UnlistenAll` keeps the surviving registrations of every event in
      their registration order, so `Invoke` still calls them in the order
      they were added. */
  lemma {:induction false} UnlistenAllKeepsOrder(hub: Hub, hs: seq<EventHandle>, e: EventId)
    ensures RegistryOf(UnlistenAll(hub, hs), e).entries == Kept(RegistryOf(hub, e).entries, e, hs)
    decreases |hs|
  {
    var es := RegistryOf(hub, e).entries;
    if |hs| == 0 {
      KeptNothing(es, e);
    } else {
      var mid := UnlistenHandle(hub, hs[0]);
      UnlistenAllKeepsOrder(mid, hs[1..], e);
      if hs[0].event == e {
        KeptRemove(es, e, hs);
      } else {
        KeptOtherEvent(es, e, hs);
      }
    }
  }

  /** A handle is live after `UnlistenAll` exactly when it was live before
      and is not one of the unlistened handles. */
  lemma UnlistenAllLive(hub: Hub, hs: seq<EventHandle>, h: EventHandle)
    ensures Live(UnlistenAll(hub, hs), h) <==> Live(hub, h) && h !in hs
  {
    var res := UnlistenAll(hub, hs);
    var before := RegistryOf(hub, h.event);
    var after := RegistryOf(res, h.event);
    if Live(res, h) {
      var i :| 0 <= i < |after.entries| && after.entries[i].id == h.id;
      assert after.entries[i] in before.entries;
      var j :| 0 <= j < |before.entries| && before.entries[j] == after.entries[i];
      assert Contains(before, h.id);
    }
    if Live(hub, h) && h !in hs {
      var i :| 0 <= i < |before.entries| && before.entries[i].id == h.id;
      assert before.entries[i] in after.entries;
      var j :| 0 <= j < |after.entries| && after.entries[j] == before.entries[i];
      assert Contains(after, h.id);
    }
  }
}

=== FILE: property_arithmetic.dfy ===
/** The `int` and `long` shortcuts of `BindablePropertyExtensions`: each reads
    `CurrentValue`, combines it with the operand using C#'s unchecked
    two's-complement arithmetic, and hands the result to `Next`. */
module PropertyArithmetic {
  import opened Wrappers
  import opened EventArgs
  import opened Listeners
  import opened BindableProperty

  /** `int` (32 bits) or `long` (64 bits). */
  datatype Width = Int32 | Int64

  /** `2^(bits - 1)`: `-Half` is `MinValue`, `Half - 1` is `MaxValue`. */
  function Half(w: Width): int {
    match w
    case Int32 => 0x8000_0000
    case Int64 => 0x8000_0000_0000_0000
  }

  function Modulus(w: Width): int {
    2 * Half(w)
  }

  predicate InRange(w: Width, x: int) {
    -Half(w) <= x < Half(w)
  }

  /** Reduces a mathematical integer to the representable value congruent to
      it: what an unchecked `+`, `-` or `*` stores. */
  function Wrap(w: Width, x: int): (r: int)
    ensures InRange(w, r)
    ensures (r - x) % Modulus(w) == 0
    ensures InRange(w, x) ==> r == x
  {
    (x + Half(w)) % Modulus(w) - Half(w)
  }

  /** Congruent integers wrap to the same value. */
  lemma WrapCongruent(w: Width, x: int, y: int)
    requires (x - y) % Modulus(w) == 0
    ensures Wrap(w, x) == Wrap(w, y)
  {
    match w
    case Int32 =>
      var k := (x - y) / 0x1_0000_0000;
      assert x + Half(w) == (y + Half(w)) + 0x1_0000_0000 * k;
    case Int64 =>
      var k := (x - y) / 0x1_0000_0000_0000_0000;
      assert x + Half(w) == (y + Half(w)) + 0x1_0000_0000_0000_0000 * k;
  }

  /** A non-zero difference smaller than the modulus is never a multiple of
      it. */
  lemma SmallNotCongruent(w: Width, d: int)
    requires d != 0 && -Modulus(w) < d < Modulus(w)
    ensures d % Modulus(w) != 0
  {
  }

  /** C#'s integer `/`: the magnitude is `|a| / |b|` rounded down, and the
      sign is negative exactly when the operands' signs differ, so the
      quotient is rounded toward zero (Dafny's own `/` is Euclidean). */
  function TruncDiv(a: int, b: int): (q: int)
    requires b != 0
    ensures Abs(q) == Abs(a) / Abs(b)
    ensures q != 0 ==> (q < 0 <==> (a < 0) != (b < 0))
  {
    var n := Abs(a);
    var d := Abs(b);
    var q := n / d;
    assert q >= 0;
    if (a < 0) == (b < 0) then q else -q
  }

  /** The remainder `a - q * b` left by `TruncDiv` is smaller than the
      divisor and has the sign of the dividend. */
  lemma TruncDivRemainder(a: int, b: int)
    requires b != 0
    ensures var r := a - TruncDiv(a, b) * b;
      -Abs(b) < r < Abs(b) && (r == 0 || (r < 0 <==> a < 0))
  {
    var n := Abs(a);
    var d := Abs(b);
    var q := n / d;
    var m := n % d;
    assert n == q * d + m && 0 <= m < d;
    var t := TruncDiv(a, b);
    if (a < 0) == (b < 0) {
      assert t == q;
      if a < 0 {
        assert t * b == -(q * d);
        assert a - t * b == -m;
      } else {
        assert t * b == q * d;
        assert a - t * b == m;
      }
    } else {
      assert t == -q;
      if a < 0 {
        assert t * b == -(q * d);
        assert a - t * b == -m;
      } else {
        assert t * b == q * d;
        assert a - t * b == m;
      }
    }
  }

  /** Dividing by at least two at least halves a natural number. */
  lemma DivAtLeastTwo(n: nat, d: nat)
    requires d >= 2
    ensures n / d <= n / 2
  {
    var q := n / d;
    assert d * q <= n;
    assert 2 * q <= d * q;
  }

  function Abs(x: int): (y: int)
    ensures y >= 0 && (y == x || y == -x)
  {
    if x < 0 then -x else x
  }

  /** A property holding an `int`/`long` value, with the operand in range. */
  predicate Operands(w: Width, p: Property<int>, x: int) {
    InRange(w, p.value) && InRange(w, x)
  }

  /** `Add(value)`: `Next(CurrentValue + value)` with wrap-around. */
  function Add(w: Width, hub: Hub, p: Property<int>, x: int): (r: NextResult<int>)
    requires Operands(w, p, x)
    ensures InRange(w, r.property.value)
    ensures r.changed <==> !p.equals(p.value, Wrap(w, p.value + x))
    ensures r.changed ==> r.property.value == Wrap(w, p.value + x)
    ensures r.changed ==> (r.property.value - (p.value + x)) % Modulus(w) == 0
    ensures r.changed ==> r.emitted == [PropertyChangedEventArg(p.value, r.property.value)]
    ensures r.changed ==> r.calls == Invoke(hub, p.onValueChanged, Changed(r.emitted[0]))
    ensures !r.changed ==> r.property.value == p.value && r.emitted == [] && r.calls == []
    ensures r.property.equals == p.equals && r.property.onValueChanged == p.onValueChanged
  {
    Next(hub, p, Wrap(w, p.value + x))
  }

  /** `Subtract(value)`: `Next(CurrentValue - value)` with wrap-around. */
  function Subtract(w: Width, hub: Hub, p: Property<int>, x: int): (r: NextResult<int>)
    requires Operands(w, p, x)
    ensures InRange(w, r.property.value)
    ensures r.changed <==> !p.equals(p.value, Wrap(w, p.value - x))
    ensures r.changed ==> r.property.value == Wrap(w, p.value - x)
    ensures r.changed ==> (r.property.value - (p.value - x)) % Modulus(w) == 0
    ensures r.changed ==> r.emitted == [PropertyChangedEventArg(p.value, r.property.value)]
    ensures r.changed ==> r.calls == Invoke(hub, p.onValueChanged, Changed(r.emitted[0]))
    ensures !r.changed ==> r.property.value == p.value && r.emitted == [] && r.calls == []
    ensures r.property.equals == p.equals && r.property.onValueChanged == p.onValueChanged
  {
    Next(hub, p, Wrap(w, p.value - x))
  }

  /** `Multiply(value)`: `Next(CurrentValue * value)` with wrap-around. */
  function Multiply(w: Width, hub: Hub, p: Property<int>, x: int): (r: NextResult<int>)
    requires Operands(w, p, x)
    ensures InRange(w, r.property.value)
    ensures r.changed <==> !p.equals(p.value, Wrap(w, p.value * x))
    ensures r.changed ==> r.property.value == Wrap(w, p.value * x)
    ensures r.changed ==> (r.property.value - p.value * x) % Modulus(w) == 0
    ensures r.changed ==> r.emitted == [PropertyChangedEventArg(p.value, r.property.value)]
    ensures r.changed ==> r.calls == Invoke(hub, p.onValueChanged, Changed(r.emitted[0]))
    ensures !r.changed ==> r.property.value == p.value && r.emitted == [] && r.calls == []
    ensures r.property.equals == p.equals && r.property.onValueChanged == p.onValueChanged
  {
    Next(hub, p, Wrap(w, p.value * x))
  }

  /** `Divide(value)`: a zero divisor throws `DivideByZeroException` and
      `MinValue / -1` throws `OverflowException` (as the .NET runtime does
      even in unchecked code);
      both leave the property untouched because `Next` is never reached.
      Otherwise `Next` gets the quotient rounded toward zero. */
  function Divide(w: Width, hub: Hub, p: Property<int>, x: int): (r: Result<NextResult<int>, Exception>)
    requires Operands(w, p, x)
    ensures x == 0 <==> r == Failure(DivideByZeroException)
    ensures (x == -1 && p.value == -Half(w)) <==> r == Failure(OverflowException)
    ensures r.Success? ==> InRange(w, r.value.property.value)
    ensures r.Success? ==> (r.value.changed <==> !p.equals(p.value, TruncDiv(p.value, x)))
    ensures r.Success? && r.value.changed ==>
      r.value.property.value == TruncDiv(p.value, x)
      && r.value.emitted == [PropertyChangedEventArg(p.value, TruncDiv(p.value, x))]
    ensures r.Success? && r.value.changed ==>
      var q := r.value.property.value;
      Abs(q) == Abs(p.value) / Abs(x) && (q != 0 ==> (q < 0 <==> (p.value < 0) != (x < 0)))
    ensures r.Success? && r.value.changed ==>
      r.value.calls == Invoke(hub, p.onValueChanged, Changed(r.value.emitted[0]))
    ensures r.Success? && !r.value.changed ==>
      r.value.property.value == p.value && r.value.emitted == [] && r.value.calls == []
    ensures r.Success? ==>
      r.value.property.equals == p.equals && r.value.property.onValueChanged == p.onValueChanged
  {
    if x == 0 then Failure(DivideByZeroException)
    else if x == -1 && p.value == -Half(w) then Failure(OverflowException)
    else
      var q := TruncDiv(p.value, x);
      assert InRange(w, q) by {
        if Abs(x) == 1 {
          assert Abs(q) == Abs(p.value);
        } else {
          DivAtLeastTwo(Abs(p.value), Abs(x));
        }
      }
      Success(Next(hub, p, q))
  }

  /** Under the default comparer, `Add` and `Subtract` fire exactly when the
      operand is non-zero: a non-zero operand smaller than the modulus always
      moves the stored value. */
  lemma AddChangesIffNonZero(w: Width, hub: Hub, p: Property<int>, x: int)
    requires Operands(w, p, x) && IsDefaultComparer(p.equals)
    ensures Add(w, hub, p, x).changed <==> x != 0
    ensures Subtract(w, hub, p, x).changed <==> x != 0
  {
    var s := Wrap(w, p.value + x);
    var d := Wrap(w, p.value - x);
    if x != 0 {
      NonZeroMoves(w, p.value, x);
      NonZeroMoves(w, p.value, -x);
      assert p.value - x == p.value + -x;
    }
  }

  lemma NonZeroMoves(w: Width, a: int, x: int)
    requires InRange(w, a) && x != 0 && -Modulus(w) < x < Modulus(w)
    ensures Wrap(w, a + x) != a
  {
    SmallNotCongruent(w, -x);
    assert a - (a + x) == -x;
  }

  lemma MulMinusSelf(a: int, x: int)
    ensures a * x - a == a * (x - 1)
  {
  }

  /** `d` and `-d` are multiples of the modulus together. */
  lemma NegCongruent(w: Width, d: int)
    ensures d % Modulus(w) == 0 <==> (-d) % Modulus(w) == 0
  {
    var m := Modulus(w);
    if d % m == 0 {
      var k := d / m;
      assert -d == m * -k;
    }
    if (-d) % m == 0 {
      var k := (-d) / m;
      assert d == m * -k;
    }
  }

  /** Under the default comparer `Multiply(x)` fires exactly when
      `CurrentValue * (x - 1)` is not a multiple of the modulus: besides the
      operand `1` and the value `0`, a product that wraps back to the
      current value (`int.MinValue * 3`) is silent too. */
  lemma MultiplyChangesIff(w: Width, hub: Hub, p: Property<int>, x: int)
    requires Operands(w, p, x) && IsDefaultComparer(p.equals)
    ensures Multiply(w, hub, p, x).changed <==> (p.value * (x - 1)) % Modulus(w) != 0
  {
    var a := p.value;
    var m := a * x;
    MulMinusSelf(a, x);
    if (a * (x - 1)) % Modulus(w) == 0 {
      WrapCongruent(w, m, a);
    } else {
      NegCongruent(w, m - a);
      assert a - m == -(m - a);
      assert (a - m) % Modulus(w) != 0;
    }
  }

  /** `int.MinValue * 3` wraps back to `int.MinValue`, so no event fires. */
  lemma MinValueTimesThreeIsSilent(hub: Hub, p: Property<int>)
    requires p.value == -Half(Int32) && IsDefaultComparer(p.equals)
    ensures !Multiply(Int32, hub, p, 3).changed
    ensures Multiply(Int32, hub, p, 3).property.value == -Half(Int32)
  {
    MultiplyChangesIff(Int32, hub, p, 3);
    assert -Half(Int32) * (3 - 1) == -Modulus(Int32);
  }

  /** Truncating division leaves `a` where it is exactly when `a` is zero
      or the divisor is `1`: `-1` negates, and any divisor of magnitude two
      or more shrinks a non-zero value. */
  lemma TruncDivFixed(a: int, x: int)
    requires x != 0
    ensures TruncDiv(a, x) == a <==> a == 0 || x == 1
  {
    var q := TruncDiv(a, x);
    if a != 0 && x != 1 {
      if Abs(x) >= 2 {
        DivAtLeastTwo(Abs(a), Abs(x));
        assert Abs(q) < Abs(a);
      } else {
        assert x == -1;
        assert q == -a;
      }
    }
  }

  /** Under the default comparer a `Divide` that reaches `Next` fires
      exactly when the current value is non-zero and the divisor is not
      `1`. */
  lemma DivideChangesIff(w: Width, hub: Hub, p: Property<int>, x: int)
    requires Operands(w, p, x) && IsDefaultComparer(p.equals)
    ensures Divide(w, hub, p, x).Success? ==> (Divide(w, hub, p, x).value.changed <==> p.value != 0 && x != 1)
  {
    if x != 0 {
      TruncDivFixed(p.value, x);
    }
  }

  /** Under the default comparer the identity operands never fire an event:
      `Add(0)`, `Subtract(0)`, `Multiply(1)` and `Divide(1)` leave the
      property as it was. */
  lemma IdentityOperandsAreSilent(w: Width, hub: Hub, p: Property<int>)
    requires InRange(w, p.value) && IsDefaultComparer(p.equals)
    ensures !Add(w, hub, p, 0).changed && !Subtract(w, hub, p, 0).changed
    ensures !Multiply(w, hub, p, 1).changed
    ensures Divide(w, hub, p, 1).Success? && !Divide(w, hub, p, 1).value.changed
  {
    assert TruncDiv(p.value, 1) == p.value;
  }

  /** `Subtract(x)` undoes `Add(x)` under the default comparer, overflow
      included: the wrapped sum wraps back to the original value. */
  lemma AddThenSubtract(w: Width, hub: Hub, p: Property<int>, x: int)
    requires Operands(w, p, x) && IsDefaultComparer(p.equals)
    ensures Subtract(w, hub, Add(w, hub, p, x).property, x).property.value == p.value
  {
    var s := Wrap(w, p.value + x);
    assert (s - x - p.value) % Modulus(w) == 0 by {
      assert s - x - p.value == s - (p.value + x);
    }
    WrapCongruent(w, s - x, p.value);
  }

  /** `int.MaxValue + 1` wraps to `int.MinValue`, and the event reports it. */
  lemma AddOverflowWraps(hub: Hub, p: Property<int>)
    requires p.value == Half(Int32) - 1 && IsDefaultComparer(p.equals)
    ensures Add(Int32, hub, p, 1).property.value == -Half(Int32)
    ensures Add(Int32, hub, p, 1).emitted == [PropertyChangedEventArg(Half(Int32) - 1, -Half(Int32))]
  {
  }

  /** Division rounds toward zero: `-7 / 2` stores `-3`, not `-4`. */
  lemma DivideTruncates(w: Width, hub: Hub, p: Property<int>)
    requires p.value == -7 && IsDefaultComparer(p.equals)
    ensures Divide(w, hub, p, 2) == Success(Next(hub, p, -3))
  {
    assert TruncDiv(-7, 2) == -3;
  }
}

=== FILE: scenarios.dfy ===
/** The library's own test scenarios, stated as facts about the model: each
    lemma replays one test method on concrete values and states what its
    assertions check. */
module Scenarios {
  import opened Wrappers
  import opened EventArgs
  import opened EasyDelegate
  import opened Listeners
  import opened Binders
  import opened BinderBindings
  import opened CollectionBindings
  import opened BindableProperty
  import opened BindableObject
  import L = BindableList
  import D = BindableDictionary

  /** ASCII case folding, enough for the strings the comparer test uses. */
  function FoldChar(c: char): (f: char)
    ensures 'A' <= c <= 'Z' ==> f as int == c as int + 32
    ensures !('A' <= c <= 'Z') ==> f == c
  {
    if 'A' <= c <= 'Z' then (c as int + 32) as char else c
  }

  function Fold(s: string): (f: string)
    ensures |f| == |s| && forall i :: 0 <= i < |s| ==> f[i] == FoldChar(s[i])
  {
    seq(|s|, i requires 0 <= i < |s| => FoldChar(s[i]))
  }

  /** A case-insensitive string comparer. */
  function IgnoreCase(): (string, string) -> bool {
    (a: string, b: string) => Fold(a) == Fold(b)
  }

  /** The comparer test: under a case-insensitive comparer, `"someValue"`
      after `"SomeValue"` neither fires nor replaces the stored value, while
      `"some_value"` and then `"someValue"` both fire; three events in all. */
  lemma ComparerScenario(hub: Hub, e: EventId)
    ensures var p0 := Property("", IgnoreCase(), e);
      var r1 := Next(hub, p0, "SomeValue");
      var r2 := Next(hub, r1.property, "someValue");
      var r3 := Next(hub, r2.property, "some_value");
      var r4 := Next(hub, r3.property, "someValue");
      && r1.changed && r1.property.value == "SomeValue"
      && !r2.changed && r2.property.value == "SomeValue"
      && r3.changed && r3.property.value == "some_value"
      && r4.changed && r4.property.value == "someValue"
      && |r1.emitted + r2.emitted + r3.emitted + r4.emitted| == 3
  {
    assert Fold("SomeValue") == Fold("someValue") by {
      assert forall i :: 0 <= i < 9 ==> FoldChar("SomeValue"[i]) == FoldChar("someValue"[i]);
    }
    assert |Fold("")| != |Fold("SomeValue")|;
    assert |Fold("SomeValue")| != |Fold("some_value")|;
  }

  /** Fan-out to a single listener. */
  lemma FanOutSingle<T>(l: Listener, payload: Arg<T>)
    ensures FanOut([l], payload) == match Deliver(l, payload) case Some(c) => [c] case None => []
  {
    assert [l][1..] == [];
  }

  /** Binding on an event nobody listens to leaves exactly the new
      registration there, under the recorded handle. */
  lemma AttachFresh(s: Bindings, e: EventId, l: Listener)
    requires RegistryOf(s.hub, e).entries == []
    ensures var r := Attach(s, e, l);
      RegistryOf(r.hub, e).entries == [Entry(r.binder.handles[|s.binder.handles|].id, l)]
  {
    var r := Attach(s, e, l);
    assert Callbacks(RegistryOf(r.hub, e)) == [l];
    assert Live(r.hub, r.binder.handles[|s.binder.handles|]);
  }

  /** A changing `Next` with one `Action<T>` listener calls it with the new
      value. */
  lemma NextToOne<T>(hub: Hub, p: Property<T>, h: HandlerId, v: T)
    requires Callbacks(RegistryOf(hub, p.onValueChanged)) == [Projecting(NextOnly, Some(h))]
    requires !p.equals(p.value, v)
    ensures Next(hub, p, v).calls == [Call(Some(h), One(v))]
  {
    FanOutSingle(Projecting(NextOnly, Some(h)), Changed(PropertyChangedEventArg(p.value, v)));
  }

  /** Every registration on `e` carries a handle the binder recorded. */
  ghost predicate AllRecorded(hub: Hub, b: Binder, e: EventId) {
    forall i :: 0 <= i < |RegistryOf(hub, e).entries| ==> EventHandle(e, RegistryOf(hub, e).entries[i].id) in b.handles
  }

  /** A first binding on an event nobody listens to is the event's only
      registration, recorded by the binder. */
  lemma FreshBinding(hub: Hub, e: EventId, l: Listener, b: Bindings)
    requires RegistryOf(hub, e).entries == []
    requires b == Attach(Bindings(hub, NewBinder()), e, l)
    ensures Callbacks(RegistryOf(b.hub, e)) == [l]
    ensures AllRecorded(b.hub, b.binder, e)
  {
    AttachFresh(Bindings(hub, NewBinder()), e, l);
  }

  /** A first `BindPropertyChange` on an event nobody listens to leaves the
      projecting listener as the only, recorded, registration. */
  lemma PropertyBoundOnce(hub: Hub, e: EventId, h: HandlerId, b: Bindings)
    requires RegistryOf(hub, e).entries == []
    requires BindPropertyChange(Bindings(hub, NewBinder()), Some(Property(0, DefaultComparer<int>(), e)), NextOnly, Some(h)) == Success(b)
    ensures Callbacks(RegistryOf(b.hub, e)) == [Projecting(NextOnly, Some(h))]
    ensures AllRecorded(b.hub, b.binder, e)
  {
    FreshBinding(hub, e, Projecting(NextOnly, Some(h)), b);
  }

  /** The property binder test: `BindPropertyChange` with a one-argument
      handler on a property holding 0; `Next(1)` calls it with 1, a second
      `Next(1)` calls nobody, `Next(0)` calls it with 0; after `Dispose`,
      `Next(100)` still stores 100 and calls nobody. */
  lemma PropertyBinderScenario(hub: Hub, e: EventId, h: HandlerId, isolate: bool, b: Bindings, d: Disposal)
    requires RegistryOf(hub, e).entries == []
    requires BindPropertyChange(Bindings(hub, NewBinder()), Some(Property(0, DefaultComparer<int>(), e)), NextOnly, Some(h)) == Success(b)
    requires d == Dispose(b.hub, b.binder, isolate)
    ensures var r := Next(b.hub, Property(0, DefaultComparer<int>(), e), 1);
      r.calls == [Call(Some(h), One(1))] && r.property == Property(1, DefaultComparer<int>(), e)
    ensures var r := Next(b.hub, Property(1, DefaultComparer<int>(), e), 1);
      r.calls == [] && r.property.value == 1
    ensures var r := Next(b.hub, Property(1, DefaultComparer<int>(), e), 0);
      r.calls == [Call(Some(h), One(0))] && r.property.value == 0
    ensures var r := Next(d.hub, Property(0, DefaultComparer<int>(), e), 100);
      r.calls == [] && r.property.value == 100
  {
    PropertyBoundOnce(hub, e, h, b);
    NextToOne(b.hub, Property(0, DefaultComparer<int>(), e), h, 1);
    NextToOne(b.hub, Property(1, DefaultComparer<int>(), e), h, 0);
    DisposeSilences<int>(b.hub, b.binder, isolate, e, Changed(PropertyChangedEventArg(0, 100)));
  }

  /** A first name-filtered binding on an event nobody listens to leaves
      the filter as the only listener. */
  lemma NamedBoundOnce(hub: Hub, o: Observable, h: HandlerId, b: Bindings)
    requires RegistryOf(hub, o.onPropertyChanged).entries == []
    requires b == BindObjectChangeNamed(Bindings(hub, NewBinder()), Some(o), Some("Age"), Some(h)).value
    ensures Callbacks(RegistryOf(b.hub, o.onPropertyChanged)) == [NameFilter("Age", h)]
  {
    assert Callbacks(RegistryOf(hub, o.onPropertyChanged)) == [];
  }

  /** The name-filter test: a handler bound to `"Age"` runs once when `Age`
      goes from 0 to 1, and not when `Address` goes from null to an object
      (which is still announced, as `"Address"`). */
  lemma NamedObjectScenario(hub: Hub, e: EventId, h: HandlerId, equals: (string, Ref<string>) -> bool)
    requires RegistryOf(hub, e).entries == []
    ensures var o := Observable(e);
      var b := BindObjectChangeNamed(Bindings(hub, NewBinder()), Some(o), Some("Age"), Some(h)).value;
      var age := SetStructValue(b.hub, o, DefaultComparer<int>(), 0, 1, "Age");
      var address := SetClassValue(b.hub, o, equals, Null, Obj("SomeValue"), "Address");
      && age.field == 1 && age.notified == ["Age"] && age.calls == [Call(Some(h), NoArg)]
      && address.field == Obj("SomeValue") && address.notified == ["Address"] && address.calls == []
  {
    var o := Observable(e);
    var b := BindObjectChangeNamed(Bindings(hub, NewBinder()), Some(o), Some("Age"), Some(h)).value;
    NamedBoundOnce(hub, o, h, b);
    FanOutSingle<string>(NameFilter("Age", h), Name("Age"));
    assert "Address" != "Age";
    FanOutSingle<string>(NameFilter("Age", h), Name("Address"));
  }

  /** Binding through the binder keeps every registration on an event
      recorded by it. */
  lemma AttachKeepsRecorded(s: Bindings, e: EventId, l: Listener, f: EventId)
    requires AllRecorded(s.hub, s.binder, f)
    ensures AllRecorded(Attach(s, e, l).hub, Attach(s, e, l).binder, f)
  {
    var r := Attach(s, e, l);
    var sub := Subscribe(s.hub, e, l);
    if f == e {
      var a := AddListener(RegistryOf(s.hub, e), l);
      assert RegistryOf(r.hub, e).entries == RegistryOf(s.hub, e).entries + [Entry(a.handle, l)];
      forall i | 0 <= i < |RegistryOf(r.hub, f).entries|
        ensures EventHandle(f, RegistryOf(r.hub, f).entries[i].id) in r.binder.handles
      {
        if i < |RegistryOf(s.hub, e).entries| {
          assert RegistryOf(r.hub, f).entries[i] == RegistryOf(s.hub, e).entries[i];
          assert r.binder.handles[..|s.binder.handles|] == s.binder.handles;
        } else {
          assert r.binder.handles[|s.binder.handles|] == EventHandle(e, a.handle);
        }
      }
    } else {
      assert r.binder.handles[..|s.binder.handles|] == s.binder.handles;
    }
  }

  /** Two listeners fired in binding order. */
  lemma InvokeTwo<T>(hub: Hub, e: EventId, h0: HandlerId, h1: HandlerId, payload: Arg<T>)
    requires Callbacks(RegistryOf(hub, e)) == [Direct(Some(h0)), Direct(Some(h1))]
    ensures Invoke(hub, e, payload) == [Call(Some(h0), payload), Call(Some(h1), payload)]
  {
    assert [Direct(Some(h0)), Direct(Some(h1))] == [Direct(Some(h0))] + [Direct(Some(h1))];
    FanOutAppend([Direct(Some(h0))], [Direct(Some(h1))], payload);
    FanOutSingle(Direct(Some(h0)), payload);
    FanOutSingle(Direct(Some(h1)), payload);
  }

  /** `BindListenable` with a handler appends it to the event's listeners. */
  lemma ListenAppends(s: Bindings, e: EventId, h: HandlerId, r: Bindings)
    requires BindListenable(s, Listenable(e), Some(h)) == Success(r)
    ensures Callbacks(RegistryOf(r.hub, e)) == Callbacks(RegistryOf(s.hub, e)) + [Direct(Some(h))]
  {
  }

  /** `BindListenable` leaves every other event's registry alone. */
  lemma ListenFrames(s: Bindings, e: EventId, h: HandlerId, r: Bindings, f: EventId)
    requires BindListenable(s, Listenable(e), Some(h)) == Success(r)
    requires f != e
    ensures RegistryOf(r.hub, f) == RegistryOf(s.hub, f)
  {
  }

  /** The registries of the two-event binder test after each binding. */
  lemma ListenableRegistries(hub: Hub, e0: EventId, e1: EventId, h0: HandlerId, h1: HandlerId, h2: HandlerId, s1: Bindings, s2: Bindings, s3: Bindings)
    requires e0 != e1
    requires RegistryOf(hub, e0).entries == [] && RegistryOf(hub, e1).entries == []
    requires BindListenable(Bindings(hub, NewBinder()), Listenable(e0), Some(h0)) == Success(s1)
    requires BindListenable(s1, Listenable(e0), Some(h1)) == Success(s2)
    requires BindListenable(s2, Listenable(e1), Some(h2)) == Success(s3)
    ensures Callbacks(RegistryOf(s1.hub, e0)) == [Direct(Some(h0))]
    ensures Callbacks(RegistryOf(s3.hub, e0)) == [Direct(Some(h0)), Direct(Some(h1))]
    ensures Callbacks(RegistryOf(s3.hub, e1)) == [Direct(Some(h2))]
  {
    var s0 := Bindings(hub, NewBinder());
    ListenableFirstEvent(s0, e0, e1, h0, h1, h2, s1, s2, s3);
    ListenableSecondEvent(s0, e0, e1, h0, h1, h2, s1, s2, s3);
  }

  /** The parameterless event of the two-event binder test. */
  lemma ListenableFirstEvent(s0: Bindings, e0: EventId, e1: EventId, h0: HandlerId, h1: HandlerId, h2: HandlerId, s1: Bindings, s2: Bindings, s3: Bindings)
    requires e0 != e1
    requires Callbacks(RegistryOf(s0.hub, e0)) == []
    requires BindListenable(s0, Listenable(e0), Some(h0)) == Success(s1)
    requires BindListenable(s1, Listenable(e0), Some(h1)) == Success(s2)
    requires BindListenable(s2, Listenable(e1), Some(h2)) == Success(s3)
    ensures Callbacks(RegistryOf(s1.hub, e0)) == [Direct(Some(h0))]
    ensures Callbacks(RegistryOf(s3.hub, e0)) == [Direct(Some(h0)), Direct(Some(h1))]
  {
    ListenAppends(s0, e0, h0, s1);
    assert Callbacks(RegistryOf(s1.hub, e0)) == [Direct(Some(h0))];
    ListenAppends(s1, e0, h1, s2);
    ListenFrames(s2, e1, h2, s3, e0);
  }

  /** The `int` event of the two-event binder test. */
  lemma ListenableSecondEvent(s0: Bindings, e0: EventId, e1: EventId, h0: HandlerId, h1: HandlerId, h2: HandlerId, s1: Bindings, s2: Bindings, s3: Bindings)
    requires e0 != e1
    requires Callbacks(RegistryOf(s0.hub, e1)) == []
    requires BindListenable(s0, Listenable(e0), Some(h0)) == Success(s1)
    requires BindListenable(s1, Listenable(e0), Some(h1)) == Success(s2)
    requires BindListenable(s2, Listenable(e1), Some(h2)) == Success(s3)
    ensures Callbacks(RegistryOf(s3.hub, e1)) == [Direct(Some(h2))]
  {
    ListenFrames(s0, e0, h0, s1, e1);
    ListenFrames(s1, e0, h1, s2, e1);
    ListenAppends(s2, e1, h2, s3);
  }

  /** The calls of the two-event binder test. */
  lemma ListenableInvokes(hub: Hub, e0: EventId, e1: EventId, h0: HandlerId, h1: HandlerId, h2: HandlerId, s1: Bindings, s2: Bindings, s3: Bindings)
    requires e0 != e1
    requires RegistryOf(hub, e0).entries == [] && RegistryOf(hub, e1).entries == []
    requires BindListenable(Bindings(hub, NewBinder()), Listenable(e0), Some(h0)) == Success(s1)
    requires BindListenable(s1, Listenable(e0), Some(h1)) == Success(s2)
    requires BindListenable(s2, Listenable(e1), Some(h2)) == Success(s3)
    ensures Invoke<int>(s1.hub, e0, NoArg) == [Call(Some(h0), NoArg)]
    ensures Invoke(s3.hub, e1, One(5)) == [Call(Some(h2), One(5))]
    ensures Invoke<int>(s3.hub, e0, NoArg) == [Call(Some(h0), NoArg), Call(Some(h1), NoArg)]
  {
    ListenableRegistries(hub, e0, e1, h0, h1, h2, s1, s2, s3);
    FanOutSingle<int>(Direct(Some(h0)), NoArg);
    InvokeTwo<int>(s3.hub, e0, h0, h1, NoArg);
    FanOutSingle<int>(Direct(Some(h2)), One(5));
  }

  /** After `Dispose` both events of the two-event binder test have no
      listener left. */
  lemma ListenableDisposes(hub: Hub, e0: EventId, e1: EventId, h0: HandlerId, h1: HandlerId, h2: HandlerId, s1: Bindings, s2: Bindings, s3: Bindings, isolate: bool)
    requires RegistryOf(hub, e0).entries == [] && RegistryOf(hub, e1).entries == []
    requires BindListenable(Bindings(hub, NewBinder()), Listenable(e0), Some(h0)) == Success(s1)
    requires BindListenable(s1, Listenable(e0), Some(h1)) == Success(s2)
    requires BindListenable(s2, Listenable(e1), Some(h2)) == Success(s3)
    ensures ListenerCount(RegistryOf(Dispose(s3.hub, s3.binder, isolate).hub, e0)) == 0
    ensures ListenerCount(RegistryOf(Dispose(s3.hub, s3.binder, isolate).hub, e1)) == 0
  {
    var s0 := Bindings(hub, NewBinder());
    assert s1 == Attach(s0, e0, Direct(Some(h0)));
    assert s2 == Attach(s1, e0, Direct(Some(h1)));
    assert s3 == Attach(s2, e1, Direct(Some(h2)));
    AttachKeepsRecorded(s0, e0, Direct(Some(h0)), e0);
    AttachKeepsRecorded(s1, e0, Direct(Some(h1)), e0);
    AttachKeepsRecorded(s2, e1, Direct(Some(h2)), e0);
    AttachKeepsRecorded(s0, e0, Direct(Some(h0)), e1);
    AttachKeepsRecorded(s1, e0, Direct(Some(h1)), e1);
    AttachKeepsRecorded(s2, e1, Direct(Some(h2)), e1);
    DisposeSilences<int>(s3.hub, s3.binder, isolate, e0, NoArg);
    DisposeSilences<int>(s3.hub, s3.binder, isolate, e1, NoArg);
  }

  /** The two-event binder test: two handlers on a parameterless event and
      one on an `int` event, all through one binder; each `Invoke` reaches
      exactly the handlers of its own event, in binding order, and after
      `Dispose` both events have no listener left. */
  lemma ListenableScenario(hub: Hub, e0: EventId, e1: EventId, h0: HandlerId, h1: HandlerId, h2: HandlerId, s1: Bindings, s2: Bindings, s3: Bindings, isolate: bool)
    requires e0 != e1
    requires RegistryOf(hub, e0).entries == [] && RegistryOf(hub, e1).entries == []
    requires BindListenable(Bindings(hub, NewBinder()), Listenable(e0), Some(h0)) == Success(s1)
    requires BindListenable(s1, Listenable(e0), Some(h1)) == Success(s2)
    requires BindListenable(s2, Listenable(e1), Some(h2)) == Success(s3)
    ensures Invoke<int>(s1.hub, e0, NoArg) == [Call(Some(h0), NoArg)]
    ensures Invoke(s3.hub, e1, One(5)) == [Call(Some(h2), One(5))]
    ensures Invoke<int>(s3.hub, e0, NoArg) == [Call(Some(h0), NoArg), Call(Some(h1), NoArg)]
    ensures ListenerCount(RegistryOf(Dispose(s3.hub, s3.binder, isolate).hub, e0)) == 0
    ensures ListenerCount(RegistryOf(Dispose(s3.hub, s3.binder, isolate).hub, e1)) == 0
  {
    ListenableInvokes(hub, e0, e1, h0, h1, h2, s1, s2, s3);
    ListenableDisposes(hub, e0, e1, h0, h1, h2, s1, s2, s3, isolate);
  }

  /** Three cleanup actions registered on a new binder run in that order. */
  lemma ThreeCleanups(c0: CleanupAction, c1: CleanupAction, c2: CleanupAction)
    ensures Callbacks(RegisterCustomCleanupAction(RegisterCustomCleanupAction(RegisterCustomCleanupAction(NewBinder(), Some(c0)), Some(c1)), Some(c2)).disposeEvent)
         == [c0, c1, c2]
  {
  }

  /** The plain C# event test: three handlers subscribed outside the
      binder, each with a cleanup action that removes it; once `Dispose` has
      run the cleanups (none of which throws), none of the subscriptions is
      live, and nothing was logged. */
  lemma CustomCleanupScenario(hub: Hub, h0: EventHandle, h1: EventHandle, h2: EventHandle, b: Binder, isolate: bool, d: Disposal)
    requires b == RegisterCustomCleanupAction(
                   RegisterCustomCleanupAction(
                     RegisterCustomCleanupAction(NewBinder(), Some(CleanupAction([h0], false))),
                     Some(CleanupAction([h1], false))),
                   Some(CleanupAction([h2], false)))
    requires d == Dispose(hub, b, isolate)
    ensures !Live(d.hub, h0) && !Live(d.hub, h1) && !Live(d.hub, h2)
    ensures d.ran == 3 && d.logged == 0
  {
    var actions := [CleanupAction([h0], false), CleanupAction([h1], false), CleanupAction([h2], false)];
    ThreeCleanups(actions[0], actions[1], actions[2]);
    assert Callbacks(b.disposeEvent) == actions;
    CleanupStopsSubscription(hub, b, isolate, 0, h0);
    CleanupStopsSubscription(hub, b, isolate, 1, h1);
    CleanupStopsSubscription(hub, b, isolate, 2, h2);
  }

  /** A sole dictionary handler sees one single-event change once. */
  lemma SoleDictionaryHandler(hub: Hub, e: EventId, h: HandlerId, c: D.Change<int, int>)
    requires Callbacks(RegistryOf(hub, e)) == [Direct(Some(h))]
    requires c.dictionary.dictionaryChangedEvent == e && |c.events| == 1
    ensures D.Calls(hub, c) == [Call(Some(h), DictionaryChanged(c.events[0]))]
  {
    FanOutSingle<int>(Direct(Some(h)), DictionaryChanged(c.events[0]));
  }

  /** Binding on an event with no listener left makes the new handler the
      only one. */
  lemma BindDictionaryFresh(s: Bindings, d: D.BindableDictionary<int, int>, h: HandlerId, b: Bindings)
    requires RegistryOf(s.hub, d.dictionaryChangedEvent).entries == []
    requires BindDictionary(s, Some(d), Some(h)) == Success(b)
    ensures Callbacks(RegistryOf(b.hub, d.dictionaryChangedEvent)) == [Direct(Some(h))]
  {
    AttachFresh(s, d.dictionaryChangedEvent, Direct(Some(h)));
  }

  /** The dictionary's add test: a handler bound to an empty dictionary sees
      one `Add` of key 1; after `Dispose` and a new binding, writing key 2
      through the indexer reaches only the new handler, as an `Add`. */
  lemma DictionaryRebindScenario(hub: Hub, e: EventId, first: HandlerId, second: HandlerId, isolate: bool,
                                 sameReference: (int, int) -> bool, b1: Bindings, a: D.Change<int, int>, disposed: Disposal, b2: Bindings)
    requires D.IsReferenceTest(sameReference)
    requires RegistryOf(hub, e).entries == []
    requires BindDictionary<int, int>(Bindings(hub, NewBinder()), Some(D.BindableDictionary(map[], e)), Some(first)) == Success(b1)
    requires D.Add<int, int>(D.BindableDictionary(map[], e), 1, 1) == Success(a)
    requires disposed == Dispose(b1.hub, b1.binder, isolate)
    requires BindDictionary(Bindings(disposed.hub, disposed.binder), Some(a.dictionary), Some(second)) == Success(b2)
    ensures D.Calls(b1.hub, a) == [Call(Some(first), DictionaryChanged(DictionaryChangedEventArg(Some(1), EventType.Add)))]
    ensures var w := D.SetItem(a.dictionary, 2, 2, sameReference);
      && D.Calls(b2.hub, w) == [Call(Some(second), DictionaryChanged(DictionaryChangedEventArg(Some(2), EventType.Add)))]
      && w.dictionary.entries == map[1 := 1, 2 := 2]
  {
    BindDictionaryFresh(Bindings(hub, NewBinder()), D.BindableDictionary(map[], e), first, b1);
    SoleDictionaryHandler(b1.hub, e, first, a);
    FreshBinding(hub, e, Direct(Some(first)), b1);
    DisposeSilences<int>(b1.hub, b1.binder, isolate, e, NoArg);
    BindDictionaryFresh(Bindings(disposed.hub, disposed.binder), a.dictionary, second, b2);
    SoleDictionaryHandler(b2.hub, e, second, D.SetItem(a.dictionary, 2, 2, sameReference));
  }

  /** A single handler bound with `BindList` to a list nobody else listens
      to sees each single-event change exactly once. */
  lemma SoleListHandler<T>(hub: Hub, l: L.BindableList<T>, h: HandlerId, c: L.Change<T>)
    requires RegistryOf(hub, l.listChangedEvent).entries == []
    requires c.list.listChangedEvent == l.listChangedEvent && |c.events| == 1
    ensures L.Calls(BindList(Bindings(hub, NewBinder()), Some(l), Some(h)).value.hub, c)
         == [Call(Some(h), ListChanged(c.events[0]))]
  {
    BindListThenChange(Bindings(hub, NewBinder()), l, Some(h), c);
  }

  /** `Add(100)` on an empty list reports `Add` at 0. */
  lemma ListAddScenario(hub: Hub, e: EventId, h: HandlerId)
    requires RegistryOf(hub, e).entries == []
    ensures var l := L.BindableList([], e); var c := L.Add(l, 100);
      && c.list.items == [100]
      && L.Calls(BindList(Bindings(hub, NewBinder()), Some(l), Some(h)).value.hub, c)
         == [Call(Some(h), ListChanged(ListChangedEventArg(0, EventType.Add)))]
  {
    var l0 := L.BindableList([], e);
    SoleListHandler(hub, l0, h, L.Add(l0, 100));
  }

  /** `RemoveAt(1)` on `[1, 2, 3]` leaves `[1, 3]` and reports `Remove` at 1. */
  lemma ListRemoveAtScenario(hub: Hub, e: EventId, h: HandlerId)
    requires RegistryOf(hub, e).entries == []
    ensures var l := L.BindableList([1, 2, 3], e); var c := L.RemoveAt(l, 1).value;
      && c.list.items == [1, 3]
      && L.Calls(BindList(Bindings(hub, NewBinder()), Some(l), Some(h)).value.hub, c)
         == [Call(Some(h), ListChanged(ListChangedEventArg(1, EventType.Remove)))]
  {
    var l1 := L.BindableList([1, 2, 3], e);
    var rem := L.RemoveAt(l1, 1).value;
    assert rem.list.items == [1] + [3];
    SoleListHandler(hub, l1, h, rem);
  }

  /** `list[0] = -1` on `[1]` reports `Update` at 0. */
  lemma ListSetItemScenario(hub: Hub, e: EventId, h: HandlerId)
    requires RegistryOf(hub, e).entries == []
    ensures var l := L.BindableList([1], e); var c := L.SetItem(l, 0, -1).value;
      && c.list.items == [-1]
      && L.Calls(BindList(Bindings(hub, NewBinder()), Some(l), Some(h)).value.hub, c)
         == [Call(Some(h), ListChanged(ListChangedEventArg(0, EventType.Update)))]
  {
    var l2 := L.BindableList([1], e);
    SoleListHandler(hub, l2, h, L.SetItem(l2, 0, -1).value);
  }

  /** `Clear()` on `[1, 2, 3]` reports `Clear` with index -1. */
  lemma ListClearScenario(hub: Hub, e: EventId, h: HandlerId)
    requires RegistryOf(hub, e).entries == []
    ensures var l := L.BindableList([1, 2, 3], e); var c := L.Clear(l);
      && c.list.items == []
      && L.Calls(BindList(Bindings(hub, NewBinder()), Some(l), Some(h)).value.hub, c)
         == [Call(Some(h), ListChanged(ListChangedEventArg(-1, EventType.Clear)))]
  {
    var l1 := L.BindableList([1, 2, 3], e);
    SoleListHandler(hub, l1, h, L.Clear(l1));
  }

  /** The list tests: `Add(100)` on an empty list, `RemoveAt(1)` on
      `[1, 2, 3]`, `list[0] = -1` on `[1]` and `Clear()` on `[1, 2, 3]` each
      call the bound handler once, with the kind and index shown, and the
      handler already sees the new contents. */
  lemma ListScenarios(hub: Hub, e: EventId, h: HandlerId)
    requires RegistryOf(hub, e).entries == []
    ensures var l := L.BindableList([], e); var c := L.Add(l, 100);
      && c.list.items == [100]
      && L.Calls(BindList(Bindings(hub, NewBinder()), Some(l), Some(h)).value.hub, c)
         == [Call(Some(h), ListChanged(ListChangedEventArg(0, EventType.Add)))]
    ensures var l := L.BindableList([1, 2, 3], e); var c := L.RemoveAt(l, 1).value;
      && c.list.items == [1, 3]
      && L.Calls(BindList(Bindings(hub, NewBinder()), Some(l), Some(h)).value.hub, c)
         == [Call(Some(h), ListChanged(ListChangedEventArg(1, EventType.Remove)))]
    ensures var l := L.BindableList([1], e); var c := L.SetItem(l, 0, -1).value;
      && c.list.items == [-1]
      && L.Calls(BindList(Bindings(hub, NewBinder()), Some(l), Some(h)).value.hub, c)
         == [Call(Some(h), ListChanged(ListChangedEventArg(0, EventType.Update)))]
    ensures var l := L.BindableList([1, 2, 3], e); var c := L.Clear(l);
      && c.list.items == []
      && L.Calls(BindList(Bindings(hub, NewBinder()), Some(l), Some(h)).value.hub, c)
         == [Call(Some(h), ListChanged(ListChangedEventArg(-1, EventType.Clear)))]
  {
    ListAddScenario(hub, e, h);
    ListRemoveAtScenario(hub, e, h);
    ListSetItemScenario(hub, e, h);
    ListClearScenario(hub, e, h);
  }
}

=== FILE: wrappers.dfy ===
/** Small failure-carrying datatypes shared by the whole model, and the
    exceptions the modelled C# code can raise. */
module Wrappers {

  /** A value that may be absent; `None` stands for a C# `null` reference. */
  datatype Option<+T> = None | Some(value: T)

  /** Either the state a call produced, or the exception it threw. */
  datatype Result<+R, +E> = Success(value: R) | Failure(error: E)

  /** The .NET exceptions raised by the modelled operations. */
  datatype Exception =
    | ArgumentNullException(paramName: string)
    | ArgumentException(paramName: string)
    | ArgumentOutOfRangeException(paramName: string)
    | KeyNotFoundException
    | NullReferenceException
    | DivideByZeroException
    | OverflowException
    | NotSupportedException(operation: string)
}
